=== FILE: README.md ===
# pr-review: the reviewer-assignment engine in Dafny

pr-review assigns code reviewers to pull requests. A PR is opened by an
author. Up to two of the author's teammates are linked to it as reviewers,
picked in random order. It is later merged, once, at a database timestamp.
Creating a team upserts its members. Every member sent as inactive is then
unlinked from all of its PRs. For each such PR the engine tries to link one
replacement from the same team, and when none can be linked it flags the PR
with `needMoreReviewers`.

The model has five modules:

- `Domain` (`domain.dfy`) holds the rows, the four relations (`users`,
  `teams`, `pull_requests`, and the reviewer links as a set of
  (prId, userId) pairs) and the invariants.
  - `Integrity` covers the database constraints: foreign keys, unique
    usernames and unique team names.
  - `RosterInvariants` covers what the engine keeps on top of them: at most
    `MaxReviewersPerPR = 2` reviewers per PR, never the author, and a merge
    time exactly on merged PRs.
  - Links are a set, so a pair is never duplicated.
- `Dto` (`dto.dfy`) holds the three request validators. Each is an ordered
  chain of checks where the first failure wins. Each carries the source's
  exact messages and the 255-byte and 300-member limits.
- `Shuffling` (`shuffle.dfy`) is `utils.Shuffle`. It is an in-place
  Fisher-Yates walk over an array whose random index is an arbitrary choice.
- `Storage` (`storage.dfy`) is the PostgreSQL store: class `Store` has the
  four relations as fields. Each repository function that writes is a
  method with `modifies` whose contract gives the new relations. Each one
  that only reads is a method without `modifies` whose contract gives its
  result in terms of the relations.
- `Usecases` (`usecases.dfy`) holds the use-cases `CreatePR`, `MergePR`,
  `GetTeam`, `CreateTeam`, `UserSetIsActive` and `GetPRs` as methods over a
  `Store`.
  - A transaction takes a snapshot of the store. The deferred block restores
    the snapshot whenever the transaction's own `err` is set.
  - Errors returned through an `err` that `:=` shadows inside a loop reach
    no rollback. The model returns there without restoring.

The positions the model takes on the source's quirks:

- **Candidate pool of `CreatePR`.** The body of `GetMembers` is not part of
  this model. `Usecases.CreatePR` takes the candidate list as a parameter.
  Its precondition `CandidatePool` asks only that every candidate is a
  member of the author's team other than the author, each listed once. So
  the contract holds whichever such list `GetMembers` returns, with or
  without an activity filter.
- **`AssignPRToUser`'s table.** The source inserts into `pull_requests`
  (internal/repository/postgres/pr.go:85), but links live in
  `pull_requests_users` (pr.go:17). The model inserts into the link set.
  It skips a candidate whose pair already exists and returns the linked
  user's id, or "" when none was linked.
- **Argument of `GetTeammates` in `CreateTeam`.** internal/usecases/teams.go:109
  passes the new team's id where a user id is expected. `ReconcileMember`
  passes the member's id, as the doc comment at
  internal/repository/postgres/pr.go:41 describes. See "## Findings".
- **No filters in the pool.** The replacement pool has no `is_active` filter
  and no link filter, and unlinking has no status filter. None is added.
  So a member deactivated earlier in a request can be relinked as a
  replacement while a later member of the same request is reconciled.
  `CreateTeam` returns a ghost trace of the states around each member: every
  inactive member has no links right after its own turn. At the end, "no
  links left" is claimed only for the last inactive member, and a link an
  earlier one still has was added as a later member's replacement.
- **Nil PR with nil error.** `CreatePR` ignores the error of its final
  re-read and returns the PR as success. The result type
  `Result<Option<PullRequest>>` keeps that case as `Success(None)`.
  `Usecases.CreatePR` proves it does not occur.
- **Byte lengths.** Go's `len` counts bytes. `Dto.Utf8Len` gives the UTF-8
  length of a Dafny string.
- **Store methods whose bodies are not part of this model.** These are
  `CreatePR`, `UpdatePR`, `GetPRById` and `MergePR` of the `Storage`
  interface at internal/usecases/usecases.go:12-33. They are modelled after
  the errors the use-cases test for.

Where the source does not compile as given, the model follows the evident
intent:

- `GetMembers` is called with one argument more than the interface declares.
- `GetTeammates` is called at internal/usecases/teams.go:109 but is not
  declared in the `Storage` interface (internal/usecases/usecases.go:12-33).
  The model gives the store a `GetTeammates` method as the repository
  defines it.
- `AssignPRToUser` takes a member list in the interface
  (internal/usecases/usecases.go:18) but a list of user ids in the
  repository (internal/repository/postgres/pr.go:79) and at
  internal/usecases/teams.go:118. The model takes user ids.
- The repository's `CreateTeam` (internal/repository/postgres/teams.go:61)
  takes a member list that neither the interface (usecases.go:27) nor the
  call (internal/usecases/teams.go:79) passes. The model inserts the team
  row only; the members are upserted by `AddOrUpdateTeamMembers`.
- `AddOrUpdateTeamMembers` and `GetTeamMembers` are defined in both
  internal/repository/postgres/users.go and teams.go. The model has one
  store and follows users.go: count-then-insert/update, a username clash
  reported as `UserExists`, and an empty non-nil member list. The upsert
  has the same effect on the rows either way.

## Model

| member | source | states |
|---|---|---|
| Domain.ReviewersAfterUnlink | internal/repository/postgres/pr.go:16-20 | deleting every link of a user removes exactly that user from each PR's reviewer set |
| Domain.ReviewersAfterLink | internal/repository/postgres/pr.go:83-94 | inserting one link adds that user to that PR's reviewers and leaves every other PR's reviewers as they were |
| Domain.NoReviewersWithoutRow | internal/usecases/pr.go:52-58 | under the foreign keys, a PR id that has no row has no reviewers, so a newly inserted PR starts with none |
| Domain.DistinctCardinality | internal/usecases/pr.go:79-89 | a list of distinct reviewers has as many distinct members as entries |
| Domain.NoDuplicatesMultiset | internal/utils/utils.go:7-11 | a list is free of duplicates exactly when its multiset has every count at most one |
| Domain.PermutationKeepsDistinct | internal/utils/utils.go:7-11 | a permutation of a duplicate-free candidate list is duplicate-free and has the same candidates |
| Dto.Utf8LenBounds | internal/http/dto/teams.go:40-47 | the byte length the limits measure lies between the character count and four times it, and equals the character count for ASCII |
| Dto.ValidateCreatePR | internal/http/dto/pr.go:34-51 | checks id, then its UUID form, then title, then author, then its UUID form; each failure returns its own error; no error iff all pass |
| Dto.ValidateSetIsActive | internal/http/dto/users.go:29-40 | checks user id, then its UUID form, then that is_active is present; a present false is valid; no error iff all pass |
| Dto.ValidateMember | internal/http/dto/teams.go:56-89 | for one member: id required, id a UUID, username required, username at most 255 bytes, with the team-name message for the last |
| Dto.ValidateMembers | internal/http/dto/teams.go:56-89 | the member loop returns no error iff every member passes |
| Dto.ValidateMembersFirstFailure | internal/http/dto/teams.go:56-89 | an error of the member loop is the error of some member all of whose predecessors pass |
| Dto.ValidateAddTeam | internal/http/dto/teams.go:31-91 | name required, name at most 255 bytes, at most 300 members, then the members in order; no error iff all pass; an empty member list is valid |
| Dto.ValidatorErrorsAreBadRequests | internal/http/dto/teams.go:31-91 | every error of the three validators carries the bad-request code, never the team-exists or user-exists code of internal/http/dto/teams.go:10-11 |
| Dto.AcceptedTeamRequest | internal/http/dto/teams.go:31-91 | an accepted team request has a non-empty name and members with non-empty ids and usernames, all within 255 characters |
| Shuffling.Shuffle | internal/utils/utils.go:7-11 | the array's contents after the in-place swaps are a permutation of those before; arrays of length at most one are unchanged |
| Shuffling.ShuffledCopy | internal/utils/utils.go:7-11 | the shuffled list has the same length and multiset as the input; lists of length at most one are unchanged |
| Storage.FirstUnlinked | internal/repository/postgres/pr.go:80-98 | the candidate picked is the first in list order not yet linked to the PR, every earlier one being linked; none iff all are linked |
| Storage.FirstUnlinkedAfterPrefix | internal/usecases/pr.go:79-89 | with distinct candidates of which exactly the first k are linked, the next attempt picks candidate k, or none when k is the length |
| Storage.UpsertRows | internal/repository/postgres/users.go:47-76 | the upsert fails only with UserExists; on success the rows are the old ids plus the listed ids, and unlisted users are untouched |
| Storage.UpsertLastEntryWins | internal/repository/postgres/users.go:50-66 | after a successful upsert, a member's row holds the username and activity of its last entry in the list, in the new team |
| Storage.UpsertTeam | internal/repository/postgres/users.go:56-66 | after a successful upsert every listed member belongs to the new team |
| Storage.UpsertKeepsUsernamesUnique | internal/repository/postgres/users.go:67-70 | the username uniqueness constraint holds after the upsert, whether it succeeds or stops; every changed row is in the new team |
| Storage.UpsertStopsAtFirstClash | internal/repository/postgres/users.go:50-73 | a failed upsert leaves exactly the rows written for the members before the first one whose username another user holds |
| Storage.FlagNeedMoreReviewersIdempotent | internal/repository/postgres/pr.go:100-110 | setting the flag twice equals setting it once; it sets only that PR's flag to true and keeps the set of PRs |
| Storage.Store.Restore | internal/usecases/pr.go:29-40 | a rollback puts back the relations as they were when the transaction began |
| Storage.Store.UnassignPRsFromUser | internal/repository/postgres/pr.go:12-39 | deletes every link of the user whatever the PR's status, keeps all others, and returns one PR id per deleted link and only those |
| Storage.Store.GetTeammates | internal/repository/postgres/pr.go:41-76 | the users of the old reviewer's team except that reviewer and the PR's author, with no other filter; fails with no rows iff the user or the PR is missing |
| Storage.LinkAccepted | internal/repository/postgres/pr.go:83-95 | when the PR and every candidate have rows, no insert of the loop is refused by a foreign key |
| Storage.Store.AssignPRToUser | internal/repository/postgres/pr.go:78-98 | links the first candidate not yet linked and returns its id; returns "" and links nothing when the list is empty or all are linked; fails with ForeignKeyViolation and links nothing when that candidate or the PR has no row; at most one new link |
| Storage.Store.SetNeedMoreReviewers | internal/repository/postgres/pr.go:100-110 | only that PR's flag becomes true; nothing else changes |
| Storage.Store.GetPRsByUserId | internal/repository/postgres/pr.go:112-141 | returns one short view per PR the user reviews, exactly those PRs, each once |
| Storage.Store.CreatePR | internal/usecases/usecases.go:21 | inserts the PR row, or fails with PRAlreadyExists and writes nothing when the id is in use, or with ForeignKeyViolation when the author has no row |
| Storage.Store.UpdatePR | internal/usecases/usecases.go:22 | writes the needMoreReviewers flag of an existing PR and nothing else |
| Storage.Store.GetPRById | internal/usecases/usecases.go:23 | the PR with its current reviewer set, or PRNotFound |
| Storage.Store.MergePR | internal/usecases/usecases.go:24 | marks an existing PR merged at the store's time, or fails with PRNotFound |
| Storage.Store.TeamExists | internal/repository/postgres/teams.go:45-59 | true iff some team has that name |
| Storage.Store.CreateTeam | internal/repository/postgres/teams.go:61-73 | adds exactly the one team, or fails with TeamAlreadyExists when its id or name is taken, writing nothing |
| Storage.Store.GetTeamMembers | internal/repository/postgres/users.go:19-45 | exactly the users whose team has that name, each once, with id, username and activity; empty for an unknown team |
| Storage.Store.AddOrUpdateTeamMembers | internal/repository/postgres/users.go:47-76 | the new users and the outcome are those of upserting the members in list order, stopping at the first username clash; with no team row, the first member's username clash or else ForeignKeyViolation, with nothing written |
| Storage.Store.UserSetIsActive | internal/repository/postgres/users.go:78-95 | a missing value fails before any write; an unknown user is not found; otherwise only that user's activity changes |
| Storage.Store.GetUserById | internal/repository/postgres/users.go:97-110 | the user joined with its team's name, or UserNotFound |
| Usecases.CreatePR | internal/usecases/pr.go:20-107 | unknown author: UserNotFound, nothing written; id in use: PRAlreadyExists, nothing written; else an Open PR with min(2, candidates) distinct reviewers from the candidates, flagged iff fewer than two, and the store stays valid |
| Usecases.ShuffleAndAssign | internal/usecases/pr.go:77-89 | the shuffled candidates are a duplicate-free permutation of the pool, and the reviewers linked to the fresh PR are the first min(2, candidates) of them, with no other change |
| Usecases.FillReviewers | internal/usecases/pr.go:77-106 | on the freshly inserted, flagged PR: the re-read succeeds and shows an Open PR whose reviewers are min(2, candidates) distinct candidates, flagged iff fewer than two, in a valid store |
| Usecases.AssignReviewers | internal/usecases/pr.go:79-89 | the two attempts link the first two shuffled candidates, or all when fewer, and return them in order; users, teams and PR rows are unchanged |
| Usecases.AssignStep | internal/usecases/pr.go:80-88 | after the first k distinct candidates are linked, one more attempt links candidate k and returns it, or links nothing and returns "" when all are linked |
| Usecases.FreshPRLinks | internal/usecases/pr.go:79-89 | on a PR that had no reviewers, a user is linked after the loop exactly when it is among the returned reviewers |
| Usecases.LinkOneMore | internal/usecases/pr.go:86-88 | appending an assignee to the reviewer list adds exactly its one link |
| Usecases.CandidatesAreUsers | internal/usecases/pr.go:70-79 | every shuffled candidate of the author's team has a user row, so linking it cannot break a foreign key |
| Usecases.ReviewersFromPool | internal/usecases/pr.go:70-89 | every reviewer linked from the shuffled pool is a user of the author's team other than the author |
| Usecases.CreatedPR | internal/usecases/pr.go:52-100 | the state after insertion, assignment and the flag update shows the specified PR and is valid: at most two reviewers, never the author |
| Usecases.OpenedPRKeepsValid | internal/usecases/pr.go:52-89 | adding an Open PR by an existing author with at most two reviewers, all users other than the author, keeps every database constraint and roster invariant |
| Usecases.MergeIdempotent | internal/usecases/pr.go:136-139 | merging a merged PR again, at any later time, writes nothing and returns the same PR with the same status and merge time |
| Usecases.MergeFrame | internal/usecases/pr.go:141-149 | a merge changes only that PR's status and merge time, keeps links, users, teams and other PRs; an Open PR is merged at now and a merged one is left as it is |
| Usecases.MergeKeepsValid | internal/usecases/pr.go:141-149 | merging keeps a valid store valid: a merge time exactly on merged PRs, and the links and keys untouched |
| Usecases.MergePR | internal/usecases/pr.go:109-159 | new state and result are MergeSpec's: not found, the merged PR untouched, or the Open PR marked merged at now and re-read |
| Usecases.GetTeam | internal/usecases/teams.go:20-42 | TeamNotFound iff no team has the name; otherwise exactly that team's members |
| Usecases.UserSetIsActive | internal/usecases/users.go:16-39 | IsActiveMissing or UserNotFound with nothing written; otherwise only that user's activity changes and the re-read user carries the new value; no link changes |
| Usecases.GetPRs | internal/usecases/users.go:41-57 | exactly the PRs with a link to the user, each once; an empty list, not an error, for a user with no links, known or not |
| Usecases.ReconciledTransitive | internal/usecases/teams.go:97-132 | the reconciliation of one member after another is a reconciliation of the whole |
| Usecases.ReconciledKeepsValid | internal/usecases/teams.go:97-132 | a reconciliation keeps at most two reviewers per PR, never the author, and the foreign keys |
| Usecases.ReconcileStart | internal/usecases/teams.go:102-106 | after the unlink, each PR the member reviewed has lost exactly that reviewer and every other PR is untouched |
| Usecases.PickedReplacement | internal/usecases/teams.go:109-118 | the replacement picked from the pool is not yet linked, is in the new team and is neither the member nor the author; when none is picked, every user of the team other than the member and the author is already linked |
| Usecases.ReconcilePR | internal/usecases/teams.go:108-131 | handling the k-th affected PR (pool lookup, shuffle, assignment, flag) succeeds, extends the reconciliation by that PR, and leaves that PR short of a reviewer only when every teammate is already linked to it |
| Usecases.ReconcileStep | internal/usecases/teams.go:108-131 | handling one affected PR extends the reconciliation by that PR: either a replacement is linked, or the PR is flagged, and flagging is only allowed when every teammate other than the member and the author is already linked |
| Usecases.ReplacedStart | internal/usecases/teams.go:102-106 | right after the unlink, only the PRs the member reviewed have lost a reviewer |
| Usecases.HandledPRReplaced | internal/usecases/teams.go:118-130 | the PR just handled has fewer reviewers than before the unlink only when no replacement was linked and every teammate was already linked |
| Usecases.ReplacedStep | internal/usecases/teams.go:108-131 | after one more PR is handled, every handled PR is still short of a reviewer only if all teammates of the member, bar the author, are linked to it |
| Usecases.FlaggedReconciled | internal/usecases/teams.go:124-130 | a PR left without a replacement has one reviewer fewer and is flagged |
| Usecases.LinkedReconciled | internal/usecases/teams.go:118-123 | a PR that got a replacement keeps its reviewer count and its row |
| Usecases.LinkedAccounted | internal/usecases/teams.go:109-118 | the replacement link goes to a member of the new team who is neither the PR's author nor the deactivated member |
| Usecases.PendingStep | internal/usecases/teams.go:108 | the PRs still to handle are untouched by the step on another PR |
| Usecases.DoneStep | internal/usecases/teams.go:108 | the PRs already handled stay reconciled |
| Usecases.ReconcileDone | internal/usecases/teams.go:102-131 | once every affected PR is handled, the member has no links and the store is a valid reconciliation of the old one |
| Usecases.ReconcileMember | internal/usecases/teams.go:102-131 | the member ends with no links; only its links were removed; no PR gains reviewers; a PR that lost one is flagged, and lost one only if every teammate other than the member and the author is linked to it; only the flag changes; new links go to the team, never to the author |
| Usecases.ReconcileMemberAsWritten | internal/usecases/teams.go:102-113 | with the team id passed as a user id, a member with links gets them deleted and the step fails with no rows, with no replacement and no flag |
| Usecases.AsWrittenLeavesShortPRUnflagged | internal/usecases/teams.go:109-113 | what the as-written step leaves is no reconciliation: an unflagged PR loses a reviewer and stays unflagged |
| Usecases.HandledAt | internal/usecases/teams.go:96-132 | each member the loop got through was handled at its own turn, between the trace's states before and after it |
| Usecases.EveryInactiveMemberReconciled | internal/usecases/teams.go:101-131 | after the loop, each member sent as inactive was reconciled at its turn: only its links were removed, it then reviewed nothing, and a PR it left short had every other teammate but the author linked |
| Usecases.RelinkedByLaterMember | internal/usecases/teams.go:104-131 | a link to an inactive member that exists after its turn was added as a replacement during the turn of a later inactive member with another id |
| Usecases.InactiveRelinkedOnlyAsReplacement | internal/usecases/teams.go:96-132 | at the end of the loop an inactive member reviews a PR only as the replacement picked for a later inactive member |
| Usecases.TraceProgress | internal/usecases/teams.go:96-132 | the states a trace records keep the loop's promises between the first state and the state after any number of members |
| Usecases.TraceExtends | internal/usecases/teams.go:97-131 | handling one more member extends the trace by the state after it |
| Usecases.InactiveStart | internal/usecases/teams.go:96 | before the loop, with no member handled, nothing has changed and no PR is short |
| Usecases.ReconcileNextMember | internal/usecases/teams.go:97-131 | handling the next member, skipped when active and reconciled when not, keeps the store valid and the users unchanged, and extends the trace by the state after the member |
| Usecases.ActiveStep | internal/usecases/teams.go:97-100 | a member sent as active is skipped, and the PRs left short stay linked to the teammates nobody deactivated |
| Usecases.ShortInactiveStep | internal/usecases/teams.go:101-131 | after an inactive member is reconciled, every PR with fewer reviewers than at the start is linked to every team member other than its author whom no member so far deactivated |
| Usecases.InactiveStep | internal/usecases/teams.go:101-131 | reconciling the next inactive member keeps the loop's promises: only inactive members lose links, and the last inactive one so far has none |
| Usecases.InactiveDone | internal/usecases/teams.go:96-132 | a trace over every member gives the loop's promises for the whole request |
| Usecases.ReconcileInactive | internal/usecases/teams.go:96-132 | every inactive member is reconciled at its turn, in request order, as the returned trace records, and has no links right after it; an all-active request changes no link and no PR; removed links belong to inactive members; a PR left with fewer reviewers is linked to every team member, other than its author, that the request did not deactivate |
| Usecases.CreateTeam | internal/usecases/teams.go:48-135 | a taken name or id gives TeamAlreadyExists and a username clash gives UserExists, with nothing written; else the team is added, the members upserted into it, and each inactive member reconciled at its turn, as the returned trace records, all keeping the store valid; a PR left with fewer reviewers is linked to every team member, other than its author, that the request did not deactivate |
| Usecases.ValidAfterUpsert | internal/usecases/teams.go:78-94 | creating the team and upserting its members keeps the database constraints and the roster invariants |

## Left out

- `ReassignPR` and the statistics endpoint are not modelled. Their
  use-case and storage bodies, and `UnassignPRFromUser`'s body, are not
  part of this model.
- Driver failures are not modelled: a lost connection, a failed scan, a
  failed commit or rollback. The foreign-key refusals (SQLSTATE 23503) of
  the inserts in `AssignPRToUser`, `AddOrUpdateTeamMembers` and `CreatePR`
  are modelled as `ForeignKeyViolation`, since the data decides them; the
  use cases show those calls are never refused.
- Transaction isolation and concurrent requests are not modelled. A
  transaction is one atomic step.
- `uuid.Parse` is a predicate parameter of the validators. `uuid.NewString`
  for the team id and the database's `now()` for the merge time are
  parameters.
- The shuffle's probabilities are left out. The random index is an arbitrary
  choice, so only the permutation is claimed.
- The HTTP layer, configuration, logging, SQL text and pgx error codes are
  left out.
- The nil-pointer scan in `GetPRsByUserId`
  (internal/repository/postgres/pr.go:128-133) is not modelled. It crashes
  on the first row; the model returns the rows the query selects.
- The difference between a nil and an empty Go slice is not modelled. Both
  are the empty sequence.
- Usecases.CreateTeam: claims "no links left" in the final state only for
  the last member of the request sent as inactive; each earlier one has
  none right after its own turn. The pool has no activity filter, so an
  earlier inactive member can be linked again as a replacement while a
  later one is reconciled.
- Usecases.CreateTeam: requires non-empty member ids, which the validator
  guarantees. The model uses "" to mean "nobody linked".
- Usecases.CreatePR: requires each candidate to be a teammate of the author
  other than the author, listed once. `GetMembers` is not part of this
  model, so the model cannot say which teammates it returns.
- Usecases.ReconcileMemberAsWritten: states its effect only when the team
  id is no user's id, which holds for a freshly generated id.

## Findings

| source | as written | input that shows it | evidently intended | confidence | as-written member | corrected member |
|---|---|---|---|---|---|---|
| internal/usecases/teams.go:109 | `GetTeammates(ctx, tx, prId, teamId)` looks the new team's id up as a user id, finds no row, and returns through an `err` shadowed by `:=`. The transaction commits with the member's links deleted, no replacement linked and no PR flagged. | a team request with a member sent as `is_active: false` who reviews an Open PR whose `needMoreReviewers` is false | pass `member.Id`: the pool is the member's team minus the member and the author (doc comment at internal/repository/postgres/pr.go:41), and a PR left short is flagged | high, not executed | Usecases.ReconcileMemberAsWritten, Usecases.AsWrittenLeavesShortPRUnflagged | Usecases.ReconcileMember |

=== FILE: domain.dfy ===
/** Records, relations and invariants of the review store.

    The store holds four relations: `users` (id -> username, team, activity),
    `teams` (id -> unique name), `pull_requests` (id -> title, author, status,
    needMoreReviewers, mergedAt) and `pull_requests_users`, the reviewer links,
    a set of (prId, userId) pairs.  A `DbState` is a snapshot of all four; the
    use-cases take one when they open a transaction and put it back when they
    roll back.
 */
module Domain {

  type UserId = string
  type TeamId = string
  type PrId = string

  /** The database's `now()`; the store supplies it, the model takes it as a parameter. */
  type Timestamp = nat

  /** Capacity of a PR's reviewer roster (`maxReviewersPerPR`). */
  const MaxReviewersPerPR: nat := 2

  datatype Option<+T> = None | Some(value: T)

  datatype Status = Open | Merged

  /** The error values the use-cases and the store tell apart. */
  datatype Error =
    | UserNotFound
    | UserExists          // a username uniqueness clash (SQLSTATE 23505)
    | TeamNotFound
    | TeamAlreadyExists
    | PRNotFound
    | PRAlreadyExists
    | IsActiveMissing     // UserSetIsActive called with a nil IsActive
    | NoRows              // a single-row query that found no row
    | ForeignKeyViolation // a row naming a PR, user or team that has no row (SQLSTATE 23503)

  datatype Result<+T> = Success(value: T) | Failure(error: Error) {
    function ToOption(): Option<T> {
      match this
      case Success(v) => Some(v)
      case Failure(_) => None
    }
  }

  datatype Outcome = Pass | Fail(error: Error)

  /** A row of `users`. */
  datatype UserRow = UserRow(username: string, teamId: TeamId, isActive: bool)

  /** A row of `pull_requests`. */
  datatype PrRow = PrRow(title: string, authorId: UserId, status: Status,
                         needMoreReviewers: bool, mergedAt: Option<Timestamp>)

  /** A team member as requests carry it and team queries return it. */
  datatype Member = Member(id: UserId, username: string, isActive: bool)

  /** A user as `GetUserById` returns it: the team is given by name. */
  datatype User = User(id: UserId, username: string, teamName: string, isActive: bool)

  /** A PR without its reviewers, as the reviewer query returns it. */
  datatype PullRequestShort = PullRequestShort(id: PrId, title: string, authorId: UserId,
                                               status: Status, needMoreReviewers: bool)

  /** A PR with its reviewer set and merge time. */
  datatype PullRequest = PullRequest(id: PrId, title: string, authorId: UserId, status: Status,
                                     needMoreReviewers: bool, reviewers: set<UserId>,
                                     mergedAt: Option<Timestamp>)

  type Links = set<(PrId, UserId)>

  datatype DbState = DbState(users: map<UserId, UserRow>, teams: map<TeamId, string>,
                             prs: map<PrId, PrRow>, links: Links)

  predicate NoDuplicates<T(==)>(xs: seq<T>) {
    forall i, j :: 0 <= i < j < |xs| ==> xs[i] != xs[j]
  }

  /** The users linked as reviewers of PR `p`. */
  function Reviewers(links: Links, p: PrId): set<UserId> {
    set l | l in links && l.0 == p :: l.1
  }

  /** The PRs user `u` is linked to as a reviewer. */
  function ReviewedBy(links: Links, u: UserId): set<PrId> {
    set l | l in links && l.1 == u :: l.0
  }

  /** The links left after every link of user `u` is deleted. */
  function UnlinkUser(links: Links, u: UserId): Links {
    set l | l in links && l.1 != u
  }

  /** User `u` belongs to the team called `name`. */
  predicate InTeamNamed(s: DbState, u: UserId, name: string)
    requires u in s.users
  {
    s.users[u].teamId in s.teams && s.teams[s.users[u].teamId] == name
  }

  function MemberOf(s: DbState, u: UserId): Member
    requires u in s.users
  {
    Member(u, s.users[u].username, s.users[u].isActive)
  }

  function ShortView(s: DbState, p: PrId): PullRequestShort
    requires p in s.prs
  {
    var row := s.prs[p];
    PullRequestShort(p, row.title, row.authorId, row.status, row.needMoreReviewers)
  }

  function PRView(s: DbState, p: PrId): PullRequest
    requires p in s.prs
  {
    var row := s.prs[p];
    PullRequest(p, row.title, row.authorId, row.status, row.needMoreReviewers,
                Reviewers(s.links, p), row.mergedAt)
  }

  /** The constraints the database itself enforces: foreign keys, unique
      usernames, unique team names.  The empty string is never a user id
      (request validation rejects it), which lets "" stand for "nobody" as
      `AssignPRToUser` uses it. */
  ghost predicate Integrity(s: DbState) {
    && (forall l :: l in s.links ==> l.0 in s.prs && l.1 in s.users)
    && (forall p :: p in s.prs ==> s.prs[p].authorId in s.users)
    && (forall u :: u in s.users ==> s.users[u].teamId in s.teams)
    && (forall u, v :: u in s.users && v in s.users && u != v ==>
          s.users[u].username != s.users[v].username)
    && (forall a, b :: a in s.teams && b in s.teams && a != b ==> s.teams[a] != s.teams[b])
    && "" !in s.users
  }

  /** The reviewer-roster invariants the engine keeps on top of the database
      constraints: at most two reviewers per PR, never the author, and a merge
      time exactly on merged PRs.  Links are a set, so a (prId, userId) pair
      never occurs twice. */
  ghost predicate RosterInvariants(s: DbState) {
    && (forall p :: p in s.prs ==> |Reviewers(s.links, p)| <= MaxReviewersPerPR)
    && (forall l :: l in s.links && l.0 in s.prs ==> l.1 != s.prs[l.0].authorId)
    && (forall p :: p in s.prs ==> (s.prs[p].status == Merged <==> s.prs[p].mergedAt.Some?))
  }

  ghost predicate Valid(s: DbState) {
    Integrity(s) && RosterInvariants(s)
  }

  // ---------------------------------------------------------------------------
  // Lemmas about the link relation and about duplicate-free sequences

  lemma ReviewersAfterUnlink(links: Links, u: UserId, p: PrId)
    ensures Reviewers(UnlinkUser(links, u), p) == Reviewers(links, p) - {u}
  {
  }

  lemma ReviewersAfterLink(links: Links, p: PrId, u: UserId, q: PrId)
    ensures Reviewers(links + {(p, u)}, q) ==
              if q == p then Reviewers(links, q) + {u} else Reviewers(links, q)
  {
  }

  /** A PR that has no row has no reviewer links. */
  lemma NoReviewersWithoutRow(s: DbState, p: PrId)
    requires Integrity(s) && p !in s.prs
    ensures Reviewers(s.links, p) == {}
  {
  }

  /** A duplicate-free sequence has as many distinct elements as positions. */
  lemma {:induction false} DistinctCardinality<T>(xs: seq<T>)
    requires NoDuplicates(xs)
    ensures |set x | x in xs| == |xs|
  {
    if xs != [] {
      DistinctCardinality(xs[1..]);
      assert (set x | x in xs) == (set x | x in xs[1..]) + {xs[0]};
      assert xs[0] !in xs[1..];
    }
  }

  /** Duplicate-freedom is a property of the multiset alone: a sequence has no
      duplicates exactly when every element occurs at most once. */
  lemma {:induction false} NoDuplicatesMultiset<T>(xs: seq<T>)
    ensures NoDuplicates(xs) <==> forall x :: multiset(xs)[x] <= 1
  {
    if xs == [] {
    } else {
      NoDuplicatesMultiset(xs[1..]);
      assert xs == [xs[0]] + xs[1..];
      assert multiset(xs) == multiset{xs[0]} + multiset(xs[1..]);
      if NoDuplicates(xs) {
        assert NoDuplicates(xs[1..]) by {
          forall i, j | 0 <= i < j < |xs[1..]| ensures xs[1..][i] != xs[1..][j] {
            assert xs[1..][i] == xs[i + 1] && xs[1..][j] == xs[j + 1];
          }
        }
        assert xs[0] !in xs[1..] by {
          forall k | 0 <= k < |xs[1..]| ensures xs[1..][k] != xs[0] {
            assert xs[1..][k] == xs[k + 1];
          }
        }
      } else {
        var i, j :| 0 <= i < j < |xs| && xs[i] == xs[j];
        if i == 0 {
          assert xs[1..][j - 1] == xs[0];
          assert multiset(xs)[xs[0]] >= 2;
        } else {
          assert !NoDuplicates(xs[1..]) by {
            assert xs[1..][i - 1] == xs[1..][j - 1];
          }
          var x :| multiset(xs[1..])[x] > 1;
          assert multiset(xs)[x] > 1;
        }
      }
    }
  }

  /** Permuting a duplicate-free sequence keeps it duplicate-free and keeps its
      elements. */
  lemma PermutationKeepsDistinct<T>(xs: seq<T>, ys: seq<T>)
    requires multiset(xs) == multiset(ys) && NoDuplicates(xs)
    ensures NoDuplicates(ys)
    ensures forall y :: y in ys <==> y in xs
  {
    NoDuplicatesMultiset(xs);
    NoDuplicatesMultiset(ys);
    forall y ensures y in ys <==> y in xs {
      assert y in ys <==> y in multiset(ys);
      assert y in xs <==> y in multiset(xs);
    }
  }
}

=== FILE: dto.dfy ===
/** Request records and their validators.

    Each validator is an ordered chain of checks: the first failing check
    decides the error, and "no error" (`None`, Go's nil) means every check
    passed.  Every error carries the bad-request code.

    UUID syntax is decided by `uuid.Parse` from google/uuid, which accepts
    several textual forms; it is not part of this model, so the validators
    take the test as a parameter `isUuid` and every property holds whatever
    that test is.

    Go measures `len` of a string in bytes; requests are decoded from JSON,
    so their strings are UTF-8, and `Utf8Len` gives that byte length for
    Dafny's strings of Unicode scalar values.
 */
module Dto {
  import opened Domain

  /** The error codes of the dto package: the validators use the first; the
      team handler answers a taken team name or a username clash with the
      other two. */
  datatype ErrorCode = BadRequestCode | TeamExistsCode | UserExistsCode

  datatype ErrorResponse = ErrorResponse(code: ErrorCode, message: string)

  datatype CreatePRRequest = CreatePRRequest(id: string, title: string, authorId: string)

  datatype AddTeamRequest = AddTeamRequest(name: string, members: seq<Member>)

  /** `isActive` is a pointer in the request: `None` when the field is absent. */
  datatype SetIsActiveRequest = SetIsActiveRequest(userId: UserId, isActive: Option<bool>)

  const MaxNameBytes: nat := 255
  const MaxTeamMembers: nat := 300

  const ErrPRIdRequired := ErrorResponse(BadRequestCode, "pull_request_id is required")
  const ErrPRIdShouldBeUuid := ErrorResponse(BadRequestCode, "pull_request_id should be uuid")
  const ErrPRTitleRequired := ErrorResponse(BadRequestCode, "pull_request_name is required")
  const ErrAuthorIdRequired := ErrorResponse(BadRequestCode, "author_id is required")
  const ErrAuthorIdShouldBeUuid := ErrorResponse(BadRequestCode, "author_id should be uuid")

  const ErrUserIdRequired := ErrorResponse(BadRequestCode, "user_id is required")
  const ErrUserIdShouldBeUuid := ErrorResponse(BadRequestCode, "user_id should be uuid")
  const ErrIsActiveRequired := ErrorResponse(BadRequestCode, "is_active is required")

  const ErrTeamNameRequired := ErrorResponse(BadRequestCode, "team_name is required")
  const ErrTeamNameTooLong := ErrorResponse(BadRequestCode, "team_name is too long")
  const ErrTooManyMembers := ErrorResponse(BadRequestCode, "too many members")
  const ErrUsernameRequired := ErrorResponse(BadRequestCode, "username is required")
  // The member loop reports an over-long username with the team-name message
  // (dto/teams.go:81-87); the model keeps that message.
  const ErrUsernameTooLong := ErrTeamNameTooLong

  /** Number of bytes of the UTF-8 encoding of one scalar value. */
  function Utf8Width(c: char): nat {
    if c as int < 0x80 then 1
    else if c as int < 0x800 then 2
    else if c as int < 0x10000 then 3
    else 4
  }

  /** Byte length of the UTF-8 encoding of `s`: Go's `len` of the decoded string. */
  function Utf8Len(s: string): nat {
    if s == [] then 0 else Utf8Width(s[0]) + Utf8Len(s[1..])
  }

  /** The byte length lies between the number of characters and four times it,
      and equals it for ASCII text. */
  lemma {:induction false} Utf8LenBounds(s: string)
    ensures |s| <= Utf8Len(s) <= 4 * |s|
    ensures (forall i :: 0 <= i < |s| ==> s[i] as int < 0x80) ==> Utf8Len(s) == |s|
  {
    if s != [] {
      Utf8LenBounds(s[1..]);
      assert forall i :: 1 <= i < |s| ==> s[1..][i - 1] == s[i];
    }
  }

  // ---------------------------------------------------------------------------
  // CreatePRRequest.Validate: id, then title, then author

  function ValidateCreatePR(r: CreatePRRequest, isUuid: string -> bool): (e: Option<ErrorResponse>)
    ensures e.None? <==> r.id != "" && isUuid(r.id) && r.title != "" && r.authorId != "" && isUuid(r.authorId)
    ensures r.id == "" ==> e == Some(ErrPRIdRequired)
    ensures r.id != "" && !isUuid(r.id) ==> e == Some(ErrPRIdShouldBeUuid)
    ensures r.id != "" && isUuid(r.id) && r.title == "" ==> e == Some(ErrPRTitleRequired)
    ensures r.id != "" && isUuid(r.id) && r.title != "" && r.authorId == "" ==> e == Some(ErrAuthorIdRequired)
    ensures r.id != "" && isUuid(r.id) && r.title != "" && r.authorId != "" && !isUuid(r.authorId) ==>
              e == Some(ErrAuthorIdShouldBeUuid)
  {
    if r.id == "" then Some(ErrPRIdRequired)
    else if !isUuid(r.id) then Some(ErrPRIdShouldBeUuid)
    else if r.title == "" then Some(ErrPRTitleRequired)
    else if r.authorId == "" then Some(ErrAuthorIdRequired)
    else if !isUuid(r.authorId) then Some(ErrAuthorIdShouldBeUuid)
    else None
  }

  // ---------------------------------------------------------------------------
  // SetIsActiveRequest.Validate: user id, then is_active

  function ValidateSetIsActive(r: SetIsActiveRequest, isUuid: string -> bool): (e: Option<ErrorResponse>)
    ensures e.None? <==> r.userId != "" && isUuid(r.userId) && r.isActive.Some?
    ensures r.userId == "" ==> e == Some(ErrUserIdRequired)
    ensures r.userId != "" && !isUuid(r.userId) ==> e == Some(ErrUserIdShouldBeUuid)
    ensures r.userId != "" && isUuid(r.userId) && r.isActive.None? ==> e == Some(ErrIsActiveRequired)
  {
    if r.userId == "" then Some(ErrUserIdRequired)
    else if !isUuid(r.userId) then Some(ErrUserIdShouldBeUuid)
    else if r.isActive.None? then Some(ErrIsActiveRequired)
    else None
  }

  // ---------------------------------------------------------------------------
  // AddTeamRequest.Validate: name, member count, then each member in order

  /** The four checks on one member, in order. */
  function ValidateMember(m: Member, isUuid: string -> bool): (e: Option<ErrorResponse>)
    ensures e.None? <==> m.id != "" && isUuid(m.id) && m.username != "" && Utf8Len(m.username) <= MaxNameBytes
    ensures m.id == "" ==> e == Some(ErrUserIdRequired)
    ensures m.id != "" && !isUuid(m.id) ==> e == Some(ErrUserIdShouldBeUuid)
    ensures m.id != "" && isUuid(m.id) && m.username == "" ==> e == Some(ErrUsernameRequired)
    ensures m.id != "" && isUuid(m.id) && m.username != "" && Utf8Len(m.username) > MaxNameBytes ==>
              e == Some(ErrUsernameTooLong)
  {
    if m.id == "" then Some(ErrUserIdRequired)
    else if !isUuid(m.id) then Some(ErrUserIdShouldBeUuid)
    else if m.username == "" then Some(ErrUsernameRequired)
    else if Utf8Len(m.username) > MaxNameBytes then Some(ErrUsernameTooLong)
    else None
  }

  /** The early-return scan over the members: the error of the first member
      that fails, or none when every member passes. */
  function ValidateMembers(ms: seq<Member>, isUuid: string -> bool): (e: Option<ErrorResponse>)
    ensures e.None? <==> forall i :: 0 <= i < |ms| ==> ValidateMember(ms[i], isUuid).None?
  {
    if ms == [] then None
    else
      match ValidateMember(ms[0], isUuid)
      case Some(err) => Some(err)
      case None =>
        assert forall i :: 1 <= i < |ms| ==> ms[1..][i - 1] == ms[i];
        ValidateMembers(ms[1..], isUuid)
  }

  /** The error the member scan returns is that of a member all of whose
      predecessors pass. */
  lemma {:induction false} ValidateMembersFirstFailure(ms: seq<Member>, isUuid: string -> bool)
    requires ValidateMembers(ms, isUuid).Some?
    ensures exists i :: && 0 <= i < |ms| && ValidateMembers(ms, isUuid) == ValidateMember(ms[i], isUuid)
                        && forall j :: 0 <= j < i ==> ValidateMember(ms[j], isUuid).None?
  {
    if ValidateMember(ms[0], isUuid).None? {
      ValidateMembersFirstFailure(ms[1..], isUuid);
      var k :| && 0 <= k < |ms[1..]| && ValidateMembers(ms[1..], isUuid) == ValidateMember(ms[1..][k], isUuid)
               && forall j :: 0 <= j < k ==> ValidateMember(ms[1..][j], isUuid).None?;
      assert ms[k + 1] == ms[1..][k];
      assert forall j :: 1 <= j < k + 1 ==> ms[j] == ms[1..][j - 1];
      assert forall j :: 0 <= j < k + 1 ==> ValidateMember(ms[j], isUuid).None?;
    }
  }

  function ValidateAddTeam(r: AddTeamRequest, isUuid: string -> bool): (e: Option<ErrorResponse>)
    ensures r.name == "" ==> e == Some(ErrTeamNameRequired)
    ensures r.name != "" && Utf8Len(r.name) > MaxNameBytes ==> e == Some(ErrTeamNameTooLong)
    ensures r.name != "" && Utf8Len(r.name) <= MaxNameBytes && |r.members| > MaxTeamMembers ==>
              e == Some(ErrTooManyMembers)
    ensures r.name != "" && Utf8Len(r.name) <= MaxNameBytes && |r.members| <= MaxTeamMembers ==>
              e == ValidateMembers(r.members, isUuid)
    ensures e.None? <==> && r.name != "" && Utf8Len(r.name) <= MaxNameBytes
                         && |r.members| <= MaxTeamMembers
                         && forall m :: m in r.members ==> ValidateMember(m, isUuid).None?
  {
    if r.name == "" then Some(ErrTeamNameRequired)
    else if Utf8Len(r.name) > MaxNameBytes then Some(ErrTeamNameTooLong)
    else if |r.members| > MaxTeamMembers then Some(ErrTooManyMembers)
    else ValidateMembers(r.members, isUuid)
  }

  /** Every error any of the three validators returns is a bad request. */
  lemma ValidatorErrorsAreBadRequests(t: AddTeamRequest, p: CreatePRRequest, a: SetIsActiveRequest,
                                      isUuid: string -> bool)
    ensures ValidateAddTeam(t, isUuid).Some? ==> ValidateAddTeam(t, isUuid).value.code == BadRequestCode
    ensures ValidateCreatePR(p, isUuid).Some? ==> ValidateCreatePR(p, isUuid).value.code == BadRequestCode
    ensures ValidateSetIsActive(a, isUuid).Some? ==> ValidateSetIsActive(a, isUuid).value.code == BadRequestCode
  {
    var e := ValidateAddTeam(t, isUuid);
    if e.Some? && t.name != "" && Utf8Len(t.name) <= MaxNameBytes && |t.members| <= MaxTeamMembers {
      ValidateMembersFirstFailure(t.members, isUuid);
      var i :| 0 <= i < |t.members| && e == ValidateMember(t.members[i], isUuid) &&
               forall j :: 0 <= j < i ==> ValidateMember(t.members[j], isUuid).None?;
    }
  }

  /** A team request that passes validation has a non-empty name of at most
      255 characters and members with non-empty ids and usernames; the
      non-empty ids are the precondition of `Usecases.CreateTeam`. */
  lemma AcceptedTeamRequest(r: AddTeamRequest, isUuid: string -> bool)
    requires ValidateAddTeam(r, isUuid).None?
    ensures r.name != "" && |r.name| <= MaxNameBytes
    ensures forall m :: m in r.members ==> m.id != "" && m.username != "" && |m.username| <= MaxNameBytes
  {
    Utf8LenBounds(r.name);
    forall m | m in r.members ensures m.id != "" && m.username != "" && |m.username| <= MaxNameBytes {
      Utf8LenBounds(m.username);
    }
  }
}

=== FILE: shuffle.dfy ===
/** `utils.Shuffle`: an in-place random permutation of a slice.

    The source hands the slice's swap to `rand.Shuffle`, which runs the
    Fisher-Yates walk from the last position down, swapping position `i`
    with a random position `j <= i`.  The model keeps the walk and the swap
    and lets `j` be any such position, so it claims a permutation and
    nothing about probabilities.
 */
module Shuffling {

  method Shuffle<T>(a: array<T>)
    modifies a
    ensures multiset(a[..]) == old(multiset(a[..]))
    ensures a.Length <= 1 ==> a[..] == old(a[..])
  {
    var i := a.Length;
    while i > 1
      invariant 0 <= i <= a.Length
      invariant multiset(a[..]) == old(multiset(a[..]))
      invariant a.Length <= 1 ==> a[..] == old(a[..])
    {
      var j :| 0 <= j < i;
      a[i - 1], a[j] := a[j], a[i - 1];
      i := i - 1;
    }
  }

  /** Shuffles a copy of `xs` and returns it, as the use-cases do with the
      candidate slices they receive. */
  method ShuffledCopy<T>(xs: seq<T>) returns (ys: seq<T>)
    ensures multiset(ys) == multiset(xs)
    ensures |ys| == |xs|
    ensures |xs| <= 1 ==> ys == xs
  {
    var a := new T[|xs|](i requires 0 <= i < |xs| => xs[i]);
    assert a[..] == xs;
    Shuffle(a);
    ys := a[..];
    assert |ys| == |multiset(ys)| == |multiset(xs)| == |xs|;
  }
}

=== FILE: storage.dfy ===
/** The PostgreSQL storage as one object holding the four relations.

    Each method is one storage operation the use-cases call; its contract
    gives the new relations in terms of the old ones and the rows it returns.
    SQL text, driver error codes and logging are replaced by `Error` values.
    Driver failures (a lost connection, a failed scan) are not modelled: every
    error a method returns is one the data decides.

    The bodies of `CreatePR`, `UpdatePR`, `GetPRById` and `MergePR` are not
    modelled here: these operations follow the way the use-cases call them
    and the errors they test for.
 */
module Storage {
  import opened Domain

  /** A query's rows, in an order the model does not fix. */
  method Enumerate<T>(s: set<T>) returns (xs: seq<T>)
    ensures NoDuplicates(xs)
    ensures forall x :: x in xs <==> x in s
  {
    xs := [];
    var rest := s;
    while rest != {}
      invariant rest <= s
      invariant NoDuplicates(xs)
      invariant forall x :: x in xs ==> x in s && x !in rest
      invariant forall x :: x in s ==> x in xs || x in rest
      decreases rest
    {
      var x :| x in rest;
      xs := xs + [x];
      rest := rest - {x};
    }
  }

  /** The candidate `AssignPRToUser` links: the first one, in list order,
      not yet linked to `prId`. */
  function FirstUnlinked(links: Links, prId: PrId, cands: seq<UserId>): (r: Option<UserId>)
    ensures r.None? <==> forall c :: c in cands ==> (prId, c) in links
    ensures r.Some? ==> exists i :: && 0 <= i < |cands| && cands[i] == r.value
                                    && (prId, r.value) !in links
                                    && forall j :: 0 <= j < i ==> (prId, cands[j]) in links
  {
    if cands == [] then None
    else if (prId, cands[0]) !in links then Some(cands[0])
    else
      var r := FirstUnlinked(links, prId, cands[1..]);
      assert r.Some? ==> exists i :: && 1 <= i < |cands| && cands[i] == r.value
                                     && (prId, r.value) !in links
                                     && forall j :: 0 <= j < i ==> (prId, cands[j]) in links by {
        if r.Some? {
          var k :| && 0 <= k < |cands[1..]| && cands[1..][k] == r.value
                   && (prId, r.value) !in links
                   && forall j :: 0 <= j < k ==> (prId, cands[1..][j]) in links;
          assert forall j :: 1 <= j < k + 1 ==> cands[j] == cands[1..][j - 1];
          assert cands[k + 1] == r.value;
          assert forall j :: 0 <= j < k + 1 ==> (prId, cands[j]) in links;
        }
      }
      r
  }

  /** When the candidates are distinct and exactly the first `k` of them are
      linked, the next one tried is the one at position `k`. */
  lemma {:induction false} FirstUnlinkedAfterPrefix(links: Links, prId: PrId, cands: seq<UserId>, k: nat)
    requires k <= |cands|
    requires forall j :: 0 <= j < k ==> (prId, cands[j]) in links
    requires forall j :: k <= j < |cands| ==> (prId, cands[j]) !in links
    ensures FirstUnlinked(links, prId, cands) == if k < |cands| then Some(cands[k]) else None
  {
    if cands != [] && k > 0 {
      assert forall j :: 0 <= j < |cands[1..]| ==> cands[1..][j] == cands[j + 1];
      FirstUnlinkedAfterPrefix(links, prId, cands[1..], k - 1);
    }
  }

  /** The link `AssignPRToUser` would insert breaks a foreign key: the PR or
      the candidate picked has no row. */
  predicate LinkRefused(prs: map<PrId, PrRow>, users: map<UserId, UserRow>, links: Links,
                        prId: PrId, cands: seq<UserId>)
  {
    match FirstUnlinked(links, prId, cands)
    case None => false
    case Some(c) => prId !in prs || c !in users
  }

  /** With an existing PR and candidates that are all users, the link is
      never refused. */
  lemma LinkAccepted(prs: map<PrId, PrRow>, users: map<UserId, UserRow>, links: Links,
                     prId: PrId, cands: seq<UserId>)
    requires prId in prs && forall c :: c in cands ==> c in users
    ensures !LinkRefused(prs, users, links, prId, cands)
  {
    match FirstUnlinked(links, prId, cands)
    case None =>
    case Some(c) =>
      var i :| 0 <= i < |cands| && cands[i] == c;
  }

  /** Another user, not `m.id`, already has `m`'s username. */
  predicate UsernameTaken(users: map<UserId, UserRow>, m: Member) {
    exists v :: v in users && v != m.id && users[v].username == m.username
  }

  /** The users after upserting `ms` one by one into team `teamId`, stopping
      at the first member whose username another user holds. */
  function UpsertMembers(users: map<UserId, UserRow>, teamId: TeamId, ms: seq<Member>)
    : (r: (map<UserId, UserRow>, Outcome))
    decreases |ms|
  {
    if ms == [] then (users, Pass)
    else if UsernameTaken(users, ms[0]) then (users, Fail(UserExists))
    else UpsertMembers(users[ms[0].id := UserRow(ms[0].username, teamId, ms[0].isActive)], teamId, ms[1..])
  }

  /** Upserting only fails on a username clash, and on success it adds
      exactly the listed ids and leaves every unlisted user untouched. */
  lemma {:induction false} UpsertRows(users: map<UserId, UserRow>, teamId: TeamId, ms: seq<Member>)
    decreases |ms|
    ensures UpsertMembers(users, teamId, ms).1 in {Pass, Fail(UserExists)}
    ensures UpsertMembers(users, teamId, ms).1 == Pass ==>
      var after := UpsertMembers(users, teamId, ms).0;
      && after.Keys == users.Keys + (set m | m in ms :: m.id)
      && (forall u :: u in users && (forall m :: m in ms ==> m.id != u) ==> after[u] == users[u])
  {
    if ms != [] && !UsernameTaken(users, ms[0]) {
      var m0 := ms[0];
      var next := users[m0.id := UserRow(m0.username, teamId, m0.isActive)];
      UpsertRows(next, teamId, ms[1..]);
      assert ms == [m0] + ms[1..];
      assert (set m | m in ms :: m.id) == {m0.id} + (set m | m in ms[1..] :: m.id);
    }
  }

  /** On success a listed member's row is as given, in team `teamId`,
      when no later entry has the same id: the last entry wins. */
  lemma {:induction false} UpsertLastEntryWins(users: map<UserId, UserRow>, teamId: TeamId, ms: seq<Member>, i: nat)
    requires UpsertMembers(users, teamId, ms).1 == Pass
    requires i < |ms| && forall j :: i < j < |ms| ==> ms[j].id != ms[i].id
    decreases |ms|
    ensures ms[i].id in UpsertMembers(users, teamId, ms).0
    ensures UpsertMembers(users, teamId, ms).0[ms[i].id] == UserRow(ms[i].username, teamId, ms[i].isActive)
  {
    var m0 := ms[0];
    var next := users[m0.id := UserRow(m0.username, teamId, m0.isActive)];
    if i > 0 {
      assert ms[1..][i - 1] == ms[i];
      assert forall j :: i - 1 < j < |ms[1..]| ==> ms[1..][j] == ms[j + 1];
      UpsertLastEntryWins(next, teamId, ms[1..], i - 1);
    } else {
      UpsertRows(next, teamId, ms[1..]);
      forall m | m in ms[1..] ensures m.id != m0.id {
        var j :| 0 <= j < |ms[1..]| && ms[1..][j] == m;
        assert ms[j + 1] == m;
      }
    }
  }

  /** After a successful upsert every listed member belongs to `teamId`. */
  lemma {:induction false} UpsertTeam(users: map<UserId, UserRow>, teamId: TeamId, ms: seq<Member>)
    requires UpsertMembers(users, teamId, ms).1 == Pass
    decreases |ms|
    ensures forall m :: m in ms ==> m.id in UpsertMembers(users, teamId, ms).0 &&
                                    UpsertMembers(users, teamId, ms).0[m.id].teamId == teamId
  {
    if ms != [] {
      var m0 := ms[0];
      var next := users[m0.id := UserRow(m0.username, teamId, m0.isActive)];
      UpsertTeam(next, teamId, ms[1..]);
      UpsertRows(next, teamId, ms[1..]);
      assert ms == [m0] + ms[1..];
    }
  }

  /** Upserting keeps usernames unique and puts every changed row in `teamId`,
      whether it succeeds or stops at a clash. */
  lemma {:induction false} UpsertKeepsUsernamesUnique(users: map<UserId, UserRow>, teamId: TeamId, ms: seq<Member>)
    requires forall u, v :: u in users && v in users && u != v ==> users[u].username != users[v].username
    decreases |ms|
    ensures var after := UpsertMembers(users, teamId, ms).0;
      && (forall u, v :: u in after && v in after && u != v ==> after[u].username != after[v].username)
      && (forall u :: u in after ==> (u in users && after[u] == users[u]) || after[u].teamId == teamId)
  {
    if ms != [] && !UsernameTaken(users, ms[0]) {
      var m0 := ms[0];
      var next := users[m0.id := UserRow(m0.username, teamId, m0.isActive)];
      assert forall u, v :: u in next && v in next && u != v ==> next[u].username != next[v].username by {
        forall u, v | u in next && v in next && u != v ensures next[u].username != next[v].username {
          if u == m0.id {
            assert !(v in users && v != m0.id && users[v].username == m0.username);
          } else if v == m0.id {
            assert !(u in users && u != m0.id && users[u].username == m0.username);
          }
        }
      }
      UpsertKeepsUsernamesUnique(next, teamId, ms[1..]);
    }
  }

  /** Members are written in list order and the first clash stops the loop:
      a failed upsert leaves exactly the rows of the members before the one
      that clashed. */
  lemma {:induction false} UpsertStopsAtFirstClash(users: map<UserId, UserRow>, teamId: TeamId, ms: seq<Member>)
    requires UpsertMembers(users, teamId, ms).1.Fail?
    decreases |ms|
    ensures exists i :: && 0 <= i < |ms|
                        && UpsertMembers(users, teamId, ms[..i]) == (UpsertMembers(users, teamId, ms).0, Pass)
                        && UsernameTaken(UpsertMembers(users, teamId, ms).0, ms[i])
  {
    var m0 := ms[0];
    assert ms[..0] == [];
    if !UsernameTaken(users, m0) {
      var next := users[m0.id := UserRow(m0.username, teamId, m0.isActive)];
      UpsertStopsAtFirstClash(next, teamId, ms[1..]);
      var k :| && 0 <= k < |ms[1..]|
               && UpsertMembers(next, teamId, ms[1..][..k]) == (UpsertMembers(next, teamId, ms[1..]).0, Pass)
               && UsernameTaken(UpsertMembers(next, teamId, ms[1..]).0, ms[1..][k]);
      assert ms[..k + 1][0] == m0 && ms[..k + 1][1..] == ms[1..][..k];
      assert ms[1..][k] == ms[k + 1];
    }
  }

  /** The flag update of `SetNeedMoreReviewers`: that PR's flag becomes true. */
  function FlagNeedMoreReviewers(prs: map<PrId, PrRow>, prId: PrId): map<PrId, PrRow> {
    if prId in prs then prs[prId := prs[prId].(needMoreReviewers := true)] else prs
  }

  /** Setting the flag is idempotent, touches only that PR's flag, and adds
      or removes no PR. */
  lemma FlagNeedMoreReviewersIdempotent(prs: map<PrId, PrRow>, prId: PrId)
    ensures FlagNeedMoreReviewers(FlagNeedMoreReviewers(prs, prId), prId) == FlagNeedMoreReviewers(prs, prId)
    ensures FlagNeedMoreReviewers(prs, prId).Keys == prs.Keys
    ensures forall q :: q in prs && q != prId ==> FlagNeedMoreReviewers(prs, prId)[q] == prs[q]
    ensures prId in prs ==> FlagNeedMoreReviewers(prs, prId)[prId].needMoreReviewers
  {
  }

  class Store {
    var users: map<UserId, UserRow>
    var teams: map<TeamId, string>
    var prs: map<PrId, PrRow>
    var links: Links

    function State(): DbState
      reads this
    {
      DbState(users, teams, prs, links)
    }

    /** An empty database. */
    constructor ()
      ensures State() == DbState(map[], map[], map[], {})
      ensures Valid(State())
    {
      users, teams, prs, links := map[], map[], map[], {};
    }

    /** Rolling back a transaction puts back the snapshot taken when it began. */
    method Restore(s: DbState)
      modifies this
      ensures State() == s
    {
      users, teams, prs, links := s.users, s.teams, s.prs, s.links;
    }

    // -------------------------------------------------------------------------
    // Reviewer links and PRs (repository/postgres/pr.go)

    /** Deletes every link of `userId`, whatever the PR's status, and returns
        one PR id per deleted link. */
    method UnassignPRsFromUser(userId: UserId) returns (prIds: seq<PrId>)
      modifies this
      ensures links == UnlinkUser(old(links), userId)
      ensures users == old(users) && teams == old(teams) && prs == old(prs)
      ensures NoDuplicates(prIds)
      ensures forall p :: p in prIds <==> (p, userId) in old(links)
    {
      var deleted := ReviewedBy(links, userId);
      links := UnlinkUser(links, userId);
      prIds := Enumerate(deleted);
    }

    /** The users of `oldPRUserId`'s team other than `oldPRUserId` and the PR's
        author, with no filter on activity or on existing links.  Fails with no
        rows when `oldPRUserId` has no user row or the PR does not exist. */
    method GetTeammates(prId: PrId, oldPRUserId: UserId) returns (r: Result<seq<UserId>>)
      ensures r.Failure? <==> oldPRUserId !in users || prId !in prs
      ensures r.Failure? ==> r.error == NoRows
      ensures r.Success? ==> NoDuplicates(r.value)
      ensures r.Success? ==> forall u :: u in r.value <==>
                && u in users && users[u].teamId == users[oldPRUserId].teamId
                && u != oldPRUserId && u != prs[prId].authorId
    {
      if oldPRUserId !in users {
        return Failure(NoRows);
      }
      var teamId := users[oldPRUserId].teamId;
      if prId !in prs {
        return Failure(NoRows);
      }
      var authorId := prs[prId].authorId;
      var teammates := Enumerate(set u | u in users && users[u].teamId == teamId && u != oldPRUserId && u != authorId);
      r := Success(teammates);
    }

    /** Tries the candidates in order and links the first one not yet linked
        to `prId`; an existing pair is skipped.  Returns the linked id, or ""
        when every candidate was already linked.  When the PR or the picked
        candidate has no row, the insert breaks a foreign key: "" and the
        error are returned and nothing is linked. */
    method AssignPRToUser(prId: PrId, userIds: seq<UserId>) returns (id: UserId, res: Outcome)
      modifies this
      ensures LinkRefused(old(prs), old(users), old(links), prId, userIds) ==>
                id == "" && res == Fail(ForeignKeyViolation) && links == old(links)
      ensures !LinkRefused(old(prs), old(users), old(links), prId, userIds) ==>
                && res == Pass
                && id == (match FirstUnlinked(old(links), prId, userIds)
                          case Some(c) => c
                          case None => "")
                && links == if FirstUnlinked(old(links), prId, userIds).None? then old(links)
                            else old(links) + {(prId, id)}
      ensures users == old(users) && teams == old(teams) && prs == old(prs)
    {
      id, res := "", Pass;
      var i := 0;
      while i < |userIds|
        invariant 0 <= i <= |userIds|
        invariant links == old(links)
        invariant FirstUnlinked(links, prId, userIds) == FirstUnlinked(links, prId, userIds[i..])
      {
        assert userIds[i..][1..] == userIds[i + 1..];
        if (prId, userIds[i]) !in links {
          if prId !in prs || userIds[i] !in users {
            return "", Fail(ForeignKeyViolation);
          }
          links := links + {(prId, userIds[i])};
          id := userIds[i];
          break;
        }
        i := i + 1;
      }
    }

    /** Sets `needMoreReviewers` on that PR and changes nothing else. */
    method SetNeedMoreReviewers(prId: PrId)
      modifies this
      ensures prs == FlagNeedMoreReviewers(old(prs), prId)
      ensures users == old(users) && teams == old(teams) && links == old(links)
    {
      if prId in prs {
        prs := prs[prId := prs[prId].(needMoreReviewers := true)];
      }
    }

    /** The PRs `userId` is linked to as a reviewer, one entry per link. */
    method GetPRsByUserId(userId: UserId) returns (result: seq<PullRequestShort>)
      requires Integrity(State())
      ensures forall i :: 0 <= i < |result| ==>
                result[i].id in prs && result[i] == ShortView(State(), result[i].id)
      ensures forall i, j :: 0 <= i < j < |result| ==> result[i].id != result[j].id
      ensures forall p :: (p, userId) in links <==> exists i :: 0 <= i < |result| && result[i].id == p
    {
      var s := State();
      var ids := Enumerate(ReviewedBy(links, userId));
      assert forall p :: p in ids ==> (p, userId) in links && p in s.prs;
      result := seq(|ids|, i requires 0 <= i < |ids| => ShortView(s, ids[i]));
      forall p | (p, userId) in links
        ensures exists i :: 0 <= i < |result| && result[i].id == p
      {
        assert p in ReviewedBy(links, userId);
        var i :| 0 <= i < |ids| && ids[i] == p;
        assert result[i].id == p;
      }
    }

    /** Inserts a PR row; an id already in use is a conflict, and an author
        with no user row breaks the foreign key. */
    method CreatePR(prId: PrId, row: PrRow) returns (res: Outcome)
      modifies this
      ensures prId in old(prs) ==> res == Fail(PRAlreadyExists) && prs == old(prs)
      ensures prId !in old(prs) && row.authorId !in old(users) ==>
                res == Fail(ForeignKeyViolation) && prs == old(prs)
      ensures prId !in old(prs) && row.authorId in old(users) ==> res == Pass && prs == old(prs)[prId := row]
      ensures users == old(users) && teams == old(teams) && links == old(links)
    {
      if prId in prs {
        return Fail(PRAlreadyExists);
      }
      if row.authorId !in users {
        return Fail(ForeignKeyViolation);
      }
      prs := prs[prId := row];
      res := Pass;
    }

    /** Writes the `needMoreReviewers` flag of an existing PR. */
    method UpdatePR(prId: PrId, needMoreReviewers: bool)
      modifies this
      ensures prs == if prId in old(prs) then old(prs)[prId := old(prs)[prId].(needMoreReviewers := needMoreReviewers)]
                     else old(prs)
      ensures users == old(users) && teams == old(teams) && links == old(links)
    {
      if prId in prs {
        prs := prs[prId := prs[prId].(needMoreReviewers := needMoreReviewers)];
      }
    }

    /** The PR with its reviewers, or not found. */
    method GetPRById(prId: PrId) returns (r: Result<PullRequest>)
      ensures r.Failure? <==> prId !in prs
      ensures r.Failure? ==> r.error == PRNotFound
      ensures r.Success? ==> && r.value.id == prId && r.value.reviewers == Reviewers(links, prId)
                             && r.value == PRView(State(), prId)
    {
      if prId !in prs {
        return Failure(PRNotFound);
      }
      r := Success(PRView(State(), prId));
    }

    /** Marks the PR merged at `now`, or not found. */
    method MergePR(prId: PrId, now: Timestamp) returns (res: Outcome)
      modifies this
      ensures prId !in old(prs) ==> res == Fail(PRNotFound) && prs == old(prs)
      ensures prId in old(prs) ==>
                && res == Pass
                && prs == old(prs)[prId := old(prs)[prId].(status := Merged, mergedAt := Some(now))]
      ensures users == old(users) && teams == old(teams) && links == old(links)
    {
      if prId !in prs {
        return Fail(PRNotFound);
      }
      prs := prs[prId := prs[prId].(status := Merged, mergedAt := Some(now))];
      res := Pass;
    }

    // -------------------------------------------------------------------------
    // Teams and users (repository/postgres/teams.go, users.go)

    method TeamExists(name: string) returns (found: bool)
      ensures found <==> exists t :: t in teams && teams[t] == name
    {
      found := name in teams.Values;
    }

    /** Inserts the team; a clash on the id or on the unique name is reported
        as the team already existing. */
    method CreateTeam(teamId: TeamId, name: string) returns (res: Outcome)
      modifies this
      ensures res.Fail? <==> teamId in old(teams) || name in old(teams).Values
      ensures res.Fail? ==> res.error == TeamAlreadyExists && teams == old(teams)
      ensures res.Pass? ==> teams == old(teams)[teamId := name]
      ensures users == old(users) && prs == old(prs) && links == old(links)
    {
      if teamId in teams || name in teams.Values {
        return Fail(TeamAlreadyExists);
      }
      teams := teams[teamId := name];
      res := Pass;
    }

    /** The members of the team called `name`: empty when there is no such
        team or it has no members. */
    method GetTeamMembers(name: string) returns (members: seq<Member>)
      ensures forall i :: 0 <= i < |members| ==>
                members[i].id in users && InTeamNamed(State(), members[i].id, name) &&
                members[i] == MemberOf(State(), members[i].id)
      ensures forall i, j :: 0 <= i < j < |members| ==> members[i].id != members[j].id
      ensures forall u :: u in users && InTeamNamed(State(), u, name) ==>
                exists i :: 0 <= i < |members| && members[i].id == u
    {
      var s := State();
      var ids := Enumerate(set u | u in users && InTeamNamed(s, u, name));
      assert forall u :: u in ids ==> u in s.users && InTeamNamed(s, u, name);
      members := seq(|ids|, i requires 0 <= i < |ids| => MemberOf(s, ids[i]));
      forall u | u in users && InTeamNamed(s, u, name)
        ensures exists i :: 0 <= i < |members| && members[i].id == u
      {
        assert u in ids;
        var i :| 0 <= i < |ids| && ids[i] == u;
        assert members[i].id == u;
      }
    }

    /** Writes the members in list order into team `teamId`: a new id gets a
        row, a known id has its username, team and activity overwritten.  A
        username another user holds stops the loop with `UserExists`.  When
        `teamId` has no row, the first member's write breaks the foreign key
        (the username is checked first, during the write; the foreign key
        after it) and nothing is written. */
    method AddOrUpdateTeamMembers(teamId: TeamId, members: seq<Member>) returns (res: Outcome)
      modifies this
      ensures teamId in old(teams) ==> (users, res) == UpsertMembers(old(users), teamId, members)
      ensures teamId !in old(teams) ==>
                && users == old(users)
                && res == if members == [] then Pass
                          else if UsernameTaken(old(users), members[0]) then Fail(UserExists)
                          else Fail(ForeignKeyViolation)
      ensures teams == old(teams) && prs == old(prs) && links == old(links)
    {
      var i := 0;
      while i < |members|
        invariant 0 <= i <= |members|
        invariant UpsertMembers(old(users), teamId, members) == UpsertMembers(users, teamId, members[i..])
        invariant teams == old(teams) && prs == old(prs) && links == old(links)
        invariant teamId !in teams ==> i == 0 && users == old(users)
      {
        assert members[i..][1..] == members[i + 1..];
        var m := members[i];
        if UsernameTaken(users, m) {
          return Fail(UserExists);
        }
        if teamId !in teams {
          return Fail(ForeignKeyViolation);
        }
        // Insert for an unknown id, update for a known one: the same row either way.
        users := users[m.id := UserRow(m.username, teamId, m.isActive)];
        i := i + 1;
      }
      res := Pass;
    }

    /** Sets one user's activity.  A missing value fails before any write; an
        unknown user is not found. */
    method UserSetIsActive(userId: UserId, isActive: Option<bool>) returns (res: Outcome)
      modifies this
      ensures isActive.None? ==> res == Fail(IsActiveMissing) && users == old(users)
      ensures isActive.Some? && userId !in old(users) ==> res == Fail(UserNotFound) && users == old(users)
      ensures isActive.Some? && userId in old(users) ==>
                res == Pass && users == old(users)[userId := old(users)[userId].(isActive := isActive.value)]
      ensures teams == old(teams) && prs == old(prs) && links == old(links)
    {
      if isActive.None? {
        return Fail(IsActiveMissing);
      }
      if userId !in users {
        return Fail(UserNotFound);
      }
      users := users[userId := users[userId].(isActive := isActive.value)];
      res := Pass;
    }

    /** The user joined with the name of their team; not found when there is
        no such user or the join finds no team. */
    method GetUserById(userId: UserId) returns (r: Result<User>)
      ensures r.Failure? <==> userId !in users || users[userId].teamId !in teams
      ensures r.Failure? ==> r.error == UserNotFound
      ensures r.Success? ==> r.value == User(userId, users[userId].username,
                                             teams[users[userId].teamId], users[userId].isActive)
    {
      if userId !in users || users[userId].teamId !in teams {
        return Failure(UserNotFound);
      }
      var row := users[userId];
      r := Success(User(userId, row.username, teams[row.teamId], row.isActive));
    }
  }
}

=== FILE: usecases.dfy ===
/** The use-cases: each opens a transaction, chains storage operations and
    commits, or rolls back on an error.

    A transaction is modelled by its effect: `BeginTx` takes a snapshot of
    the store and a rollback restores it.  Where the source returns an error
    that the deferred commit/rollback block does not see (an `err` shadowed by
    `:=` inside a loop), the model returns without restoring, as the source
    commits there.
 */
module Usecases {
  import opened Domain
  import opened Dto
  import opened Storage
  import opened Shuffling

  function Min(a: nat, b: nat): nat {
    if a < b then a else b
  }

  // ---------------------------------------------------------------------------
  // CreatePR

  /** What `CreatePR` relies on in the candidate list it receives from
      `GetMembers`: members of the author's team other than the author, each
      once.  `GetMembers` is not part of this model, so any such list is
      allowed, whether or not it filters on activity. */
  ghost predicate CandidatePool(s: DbState, authorId: UserId, cands: seq<UserId>)
    requires authorId in s.users
  {
    && NoDuplicates(cands)
    && forall u :: u in cands ==>
         u in s.users && s.users[u].teamId == s.users[authorId].teamId && u != authorId
  }

  /** The PR `CreatePR` returns and the store it leaves, against the store
      `s0` it started from: an Open, unmerged PR with `min(2, |members|)`
      reviewers drawn from the candidates, flagged exactly when it has fewer
      than two; one new row, the new links, and nothing else changed. */
  ghost predicate OpenedWithReviewers(s0: DbState, s: DbState, req: CreatePRRequest,
                                      members: seq<UserId>, pr: PullRequest)
  {
    && pr.id == req.id && pr.title == req.title && pr.authorId == req.authorId
    && pr.status == Open && pr.mergedAt == None
    && (forall u :: u in pr.reviewers ==> u in members)
    && |pr.reviewers| == Min(MaxReviewersPerPR, |members|)
    && pr.needMoreReviewers == (|pr.reviewers| < MaxReviewersPerPR)
    && s.prs == s0.prs[req.id := PrRow(req.title, req.authorId, Open, pr.needMoreReviewers, None)]
    && s.links == s0.links + (set u | u in pr.reviewers :: (req.id, u))
    && s.users == s0.users && s.teams == s0.teams
  }

  /** Creates an Open PR flagged as needing reviewers, then links up to two
      candidates in shuffled order and clears the flag only when two were
      linked.  An unknown author or a PR id in use fails with nothing
      written.  The PR is re-read at the end; the source ignores an error of
      that read and would return a nil PR with no error, which the result type
      keeps as `Success(None)` (it does not happen: the PR was just created). */
  method CreatePR(db: Store, req: CreatePRRequest, members: seq<UserId>)
    returns (r: Result<Option<PullRequest>>)
    requires Valid(db.State())
    requires req.authorId in db.users ==> CandidatePool(db.State(), req.authorId, members)
    modifies db
    ensures Valid(db.State())
    ensures req.authorId !in old(db.users) ==>
              r == Failure(UserNotFound) && db.State() == old(db.State())
    ensures req.authorId in old(db.users) && req.id in old(db.prs) ==>
              r == Failure(PRAlreadyExists) && db.State() == old(db.State())
    ensures r.Success? <==> req.authorId in old(db.users) && req.id !in old(db.prs)
    ensures r.Success? ==>
              && r.value.Some?
              && OpenedWithReviewers(old(db.State()), db.State(), req, members, r.value.value)
  {
    var saved := db.State();
    var err: Option<Error> := None;   // the transaction's `err`, read by the deferred block
    var author := db.GetUserById(req.authorId);
    if author.Failure? {
      err := Some(author.error);
      r := Failure(UserNotFound);
    } else {
      var row := PrRow(req.title, req.authorId, Open, true, None);
      var created := db.CreatePR(req.id, row);
      if created.Fail? {
        // PRAlreadyExists is returned as such, any other error as it is.
        err := Some(created.error);
        r := Failure(created.error);
      } else {
        var pr := FillReviewers(db, req, members, saved);
        // The error of this read reaches the deferred block but not the
        // caller, who would get a nil PR and no error.
        err := ErrorOf(pr);
        r := Success(pr.ToOption());
      }
    }
    // Deferred: roll back when `err` is set, commit otherwise.
    if err.Some? {
      db.Restore(saved);
    }
  }

  /** The part of `CreatePR` after the PR row is inserted, flagged as
      needing reviewers, into store `s0`: shuffle the candidates, link up to
      two of them, clear the flag when two were linked, and re-read the PR. */
  method FillReviewers(db: Store, req: CreatePRRequest, members: seq<UserId>, ghost s0: DbState)
    returns (pr: Result<PullRequest>)
    requires Valid(s0) && req.id !in s0.prs && req.authorId in s0.users
    requires CandidatePool(s0, req.authorId, members)
    requires db.State() == s0.(prs := s0.prs[req.id := PrRow(req.title, req.authorId, Open, true, None)])
    modifies db
    ensures pr.Success? && OpenedWithReviewers(s0, db.State(), req, members, pr.value)
    ensures Valid(db.State())
  {
    var reviewers, candidates := ShuffleAndAssign(db, req, members, s0);
    if |reviewers| == MaxReviewersPerPR {
      db.UpdatePR(req.id, false);
    }
    pr := db.GetPRById(req.id);
    CreatedPR(s0, db.State(), req, members, candidates, reviewers);
  }

  /** The shuffle and the assignment loop of `CreatePR` on the freshly
      inserted PR: the reviewers are the first two shuffled candidates, or
      all of them when fewer, and only their links are added. */
  method ShuffleAndAssign(db: Store, req: CreatePRRequest, members: seq<UserId>, ghost s0: DbState)
    returns (reviewers: seq<UserId>, ghost candidates: seq<UserId>)
    requires Valid(s0) && req.id !in s0.prs && req.authorId in s0.users
    requires CandidatePool(s0, req.authorId, members)
    requires db.State() == s0.(prs := s0.prs[req.id := PrRow(req.title, req.authorId, Open, true, None)])
    modifies db
    ensures NoDuplicates(candidates) && |candidates| == |members|
    ensures forall u :: u in candidates <==> u in members
    ensures reviewers == candidates[..Min(MaxReviewersPerPR, |candidates|)]
    ensures db.users == s0.users && db.teams == s0.teams
    ensures db.prs == s0.prs[req.id := PrRow(req.title, req.authorId, Open, true, None)]
    ensures db.links == s0.links + (set u | u in reviewers :: (req.id, u))
    ensures Reviewers(db.links, req.id) == set u | u in reviewers
  {
    var shuffled := ShuffledCopy(members);
    candidates := shuffled;
    PermutationKeepsDistinct(members, shuffled);
    CandidatesAreUsers(s0, req.authorId, members, shuffled);
    NoReviewersWithoutRow(s0, req.id);
    reviewers := AssignReviewers(db, req.id, shuffled);
  }

  /** The store `CreatePR` builds from the assignment loop's outcome satisfies
      `OpenedWithReviewers` and is valid: the new PR has at most two reviewers,
      none of them its author, and every other PR keeps its links. */
  lemma CreatedPR(s0: DbState, s: DbState, req: CreatePRRequest, members: seq<UserId>,
                  candidates: seq<UserId>, reviewers: seq<UserId>)
    requires Valid(s0) && req.id !in s0.prs && req.authorId in s0.users
    requires CandidatePool(s0, req.authorId, members)
    requires NoDuplicates(candidates) && |candidates| == |members|
    requires forall u :: u in candidates <==> u in members
    requires reviewers == candidates[..Min(MaxReviewersPerPR, |candidates|)]
    requires s.users == s0.users && s.teams == s0.teams
    requires s.prs == s0.prs[req.id := PrRow(req.title, req.authorId, Open,
                                             |reviewers| < MaxReviewersPerPR, None)]
    requires s.links == s0.links + (set u | u in reviewers :: (req.id, u))
    requires Reviewers(s.links, req.id) == set u | u in reviewers
    ensures OpenedWithReviewers(s0, s, req, members, PRView(s, req.id))
    ensures Valid(s)
  {
    assert NoDuplicates(reviewers);
    DistinctCardinality(reviewers);
    ReviewersFromPool(s0, req.authorId, members, candidates, reviewers);
    OpenedPRKeepsValid(s0, s, req.id, s.prs[req.id], set u | u in reviewers);
  }

  /** The shuffled candidates are users, so linking any of them keeps the
      foreign keys. */
  lemma CandidatesAreUsers(s0: DbState, authorId: UserId, members: seq<UserId>, candidates: seq<UserId>)
    requires "" !in s0.users && authorId in s0.users && CandidatePool(s0, authorId, members)
    requires forall u :: u in candidates <==> u in members
    ensures forall c :: c in candidates ==> c in s0.users && c != ""
  {
  }

  /** Reviewers taken from the front of the shuffled candidate list are users
      of the author's team other than the author. */
  lemma ReviewersFromPool(s0: DbState, authorId: UserId, members: seq<UserId>,
                          candidates: seq<UserId>, reviewers: seq<UserId>)
    requires authorId in s0.users && CandidatePool(s0, authorId, members)
    requires forall u :: u in candidates <==> u in members
    requires reviewers == candidates[..Min(MaxReviewersPerPR, |candidates|)]
    ensures forall u :: u in reviewers ==>
              u in s0.users && s0.users[u].teamId == s0.users[authorId].teamId && u != authorId
  {
    forall u | u in reviewers
      ensures u in s0.users && s0.users[u].teamId == s0.users[authorId].teamId && u != authorId
    {
      assert u in candidates;
    }
  }

  /** Adding an Open, unmerged PR by an existing author, with at most two
      reviewers who are users other than the author, keeps the store valid. */
  lemma OpenedPRKeepsValid(s0: DbState, s: DbState, prId: PrId, row: PrRow, reviewers: set<UserId>)
    requires Valid(s0) && prId !in s0.prs && row.authorId in s0.users
    requires row.status == Open && row.mergedAt == None
    requires |reviewers| <= MaxReviewersPerPR
    requires forall u :: u in reviewers ==> u in s0.users && u != row.authorId
    requires s.users == s0.users && s.teams == s0.teams && s.prs == s0.prs[prId := row]
    requires s.links == s0.links + (set u | u in reviewers :: (prId, u))
    requires Reviewers(s.links, prId) == reviewers
    ensures Valid(s)
  {
    forall p | p in s.prs ensures |Reviewers(s.links, p)| <= MaxReviewersPerPR {
      if p != prId {
        assert Reviewers(s.links, p) == Reviewers(s0.links, p);
      }
    }
    forall l | l in s.links && l.0 in s.prs ensures l.1 != s.prs[l.0].authorId {
      if l in s0.links {
        assert l.0 != prId;
      }
    }
  }

  function ErrorOf<T>(r: Result<T>): Option<Error> {
    match r
    case Success(_) => None
    case Failure(e) => Some(e)
  }

  /** The `for range maxReviewersPerPR` loop of `CreatePR`: two assignment
      attempts over the same candidate list, the second skipping the
      candidate the first one linked.  On a PR with no reviewers and
      distinct candidates it links the first two candidates (or all, when
      fewer), and returns them in order. */
  method AssignReviewers(db: Store, prId: PrId, candidates: seq<UserId>) returns (reviewers: seq<UserId>)
    requires Reviewers(db.links, prId) == {}
    requires NoDuplicates(candidates) && "" !in candidates
    requires prId in db.prs && forall c :: c in candidates ==> c in db.users
    modifies db
    ensures reviewers == candidates[..Min(MaxReviewersPerPR, |candidates|)]
    ensures Reviewers(db.links, prId) == set u | u in reviewers
    ensures db.links == old(db.links) + (set u | u in reviewers :: (prId, u))
    ensures db.users == old(db.users) && db.teams == old(db.teams) && db.prs == old(db.prs)
  {
    ghost var links0 := db.links;
    reviewers := [];
    for attempt := 0 to MaxReviewersPerPR
      invariant reviewers == candidates[..Min(attempt, |candidates|)]
      invariant db.links == links0 + (set u | u in reviewers :: (prId, u))
      invariant db.users == old(db.users) && db.teams == old(db.teams) && db.prs == old(db.prs)
    {
      ghost var linksBefore := db.links;
      // The source's `err` in this loop is shadowed; AssignPRToUser cannot
      // fail here, as the PR has its row and every candidate is a user.
      LinkAccepted(db.prs, db.users, db.links, prId, candidates);
      var assigneeId, _ := db.AssignPRToUser(prId, candidates);
      AssignStep(links0, linksBefore, db.links, prId, candidates, reviewers, assigneeId);
      if assigneeId != "" {
        assert candidates[..|reviewers| + 1] == reviewers + [assigneeId];
        LinkOneMore(links0, prId, reviewers, assigneeId);
        reviewers := reviewers + [assigneeId];
      }
    }
    FreshPRLinks(links0, prId, reviewers);
    forall u ensures u in Reviewers(db.links, prId) <==> u in reviewers {
      assert u in Reviewers(db.links, prId) <==> (prId, u) in db.links;
    }
  }

  /** On a PR with no reviewers, after linking `reviewers` a user is linked
      to it exactly when listed. */
  lemma FreshPRLinks(links0: Links, prId: PrId, reviewers: seq<UserId>)
    requires Reviewers(links0, prId) == {}
    ensures forall u :: (prId, u) in links0 + (set v | v in reviewers :: (prId, v)) <==> u in reviewers
  {
    forall u ensures (prId, u) !in links0 {
      assert u !in Reviewers(links0, prId);
    }
  }

  /** Linking one more reviewer adds exactly its link. */
  lemma LinkOneMore(links0: Links, prId: PrId, reviewers: seq<UserId>, id: UserId)
    ensures links0 + (set u | u in reviewers + [id] :: (prId, u))
         == links0 + (set u | u in reviewers :: (prId, u)) + {(prId, id)}
  {
    assert forall u :: u in reviewers + [id] <==> u in reviewers || u == id;
  }

  /** One assignment attempt on a PR that had no reviewers, after the first
      `|reviewers|` distinct candidates were linked: it links the next
      candidate, or nothing when all are linked. */
  lemma AssignStep(links0: Links, links: Links, links': Links, prId: PrId, candidates: seq<UserId>,
                   reviewers: seq<UserId>, id: UserId)
    requires Reviewers(links0, prId) == {}
    requires NoDuplicates(candidates) && "" !in candidates
    requires |reviewers| <= |candidates| && reviewers == candidates[..|reviewers|]
    requires links == links0 + (set u | u in reviewers :: (prId, u))
    requires id == match FirstUnlinked(links, prId, candidates)
                   case Some(c) => c
                   case None => ""
    requires links' == if FirstUnlinked(links, prId, candidates).None? then links else links + {(prId, id)}
    ensures |reviewers| < |candidates| ==> id == candidates[|reviewers|] && links' == links + {(prId, id)}
    ensures |reviewers| == |candidates| ==> id == "" && links' == links
  {
    var k := |reviewers|;
    FreshPRLinks(links0, prId, reviewers);
    forall j | 0 <= j < k ensures (prId, candidates[j]) in links {
      assert candidates[j] == reviewers[j];
    }
    forall j | k <= j < |candidates| ensures (prId, candidates[j]) !in links {
      assert forall i :: 0 <= i < k ==> reviewers[i] == candidates[i] != candidates[j];
    }
    FirstUnlinkedAfterPrefix(links, prId, candidates, k);
  }

  // ---------------------------------------------------------------------------
  // MergePR

  /** The store after merging `prId` at `now`: an Open PR is marked merged
      at `now`; a merged or unknown PR leaves the store as it is. */
  function MergeState(s: DbState, prId: PrId, now: Timestamp): DbState {
    if prId in s.prs && s.prs[prId].status == Open
    then s.(prs := s.prs[prId := s.prs[prId].(status := Merged, mergedAt := Some(now))])
    else s
  }

  /** The new state and the result of merging `prId` at `now`: not found, the
      PR as it is when already merged, or the PR marked merged at `now`. */
  function MergeSpec(s: DbState, prId: PrId, now: Timestamp): (DbState, Result<PullRequest>)
  {
    var s' := MergeState(s, prId, now);
    if prId !in s.prs then (s', Failure(PRNotFound)) else (s', Success(PRView(s', prId)))
  }

  /** A merge is idempotent: merging a merged PR again, at any later time,
      writes nothing and returns the same PR, with the same `mergedAt`. */
  lemma MergeIdempotent(s: DbState, prId: PrId, t1: Timestamp, t2: Timestamp)
    requires MergeSpec(s, prId, t1).1.Success?
    ensures MergeSpec(MergeSpec(s, prId, t1).0, prId, t2) == MergeSpec(s, prId, t1)
    ensures MergeSpec(s, prId, t1).1.value.status == Merged
  {
  }

  /** A merge changes nothing but that PR's status and merge time: the links,
      users, teams and every other PR stay as they were, an Open PR gets
      merged at `now`, and a merged PR keeps its merge time. */
  lemma MergeFrame(s: DbState, prId: PrId, now: Timestamp)
    ensures var s' := MergeState(s, prId, now);
      && s'.links == s.links && s'.users == s.users && s'.teams == s.teams
      && s'.prs.Keys == s.prs.Keys
      && (forall p :: p in s.prs && p != prId ==> s'.prs[p] == s.prs[p])
      && (prId in s.prs ==> s'.prs[prId].status == Merged)
      && (prId in s.prs && s.prs[prId].status == Open ==>
            s'.prs[prId] == s.prs[prId].(status := Merged, mergedAt := Some(now)))
      && (prId in s.prs && s.prs[prId].status == Merged ==> s' == s)
  {
  }

  /** A merge keeps a valid store valid. */
  lemma MergeKeepsValid(s: DbState, prId: PrId, now: Timestamp)
    requires Valid(s)
    ensures Valid(MergeState(s, prId, now))
  {
    MergeFrame(s, prId, now);
    var s' := MergeState(s, prId, now);
    assert forall p :: p in s'.prs ==> s'.prs[p].authorId == s.prs[p].authorId;
  }

  /** Reads the PR; returns it untouched when already merged, otherwise marks
      it merged and returns the re-read PR. */
  method MergePR(db: Store, prId: PrId, now: Timestamp) returns (r: Result<PullRequest>)
    requires Valid(db.State())
    modifies db
    ensures (db.State(), r) == MergeSpec(old(db.State()), prId, now)
    ensures Valid(db.State())
  {
    MergeKeepsValid(db.State(), prId, now);
    var saved := db.State();
    var err: Option<Error> := None;   // the transaction's `err`, read by the deferred block
    r := db.GetPRById(prId);
    err := ErrorOf(r);
    if r.Success? && r.value.status == Open {
      var merged := db.MergePR(prId, now);
      match merged {
        case Fail(e) =>
          err := Some(e);
          r := Failure(PRNotFound);
        case Pass =>
          r := db.GetPRById(prId);
          err := ErrorOf(r);
      }
    }
    // Deferred: roll back when `err` is set, commit otherwise.
    if err.Some? {
      db.Restore(saved);
    }
  }

  // ---------------------------------------------------------------------------
  // GetTeam, UserSetIsActive, GetPRs

  /** The members of the team called `name`, or not found when no team has
      that name. */
  method GetTeam(db: Store, name: string) returns (r: Result<seq<Member>>)
    ensures r.Failure? <==> name !in db.teams.Values
    ensures r.Failure? ==> r.error == TeamNotFound
    ensures r.Success? ==>
              && (forall i :: 0 <= i < |r.value| ==>
                    && r.value[i].id in db.users && InTeamNamed(db.State(), r.value[i].id, name)
                    && r.value[i] == MemberOf(db.State(), r.value[i].id))
              && (forall i, j :: 0 <= i < j < |r.value| ==> r.value[i].id != r.value[j].id)
              && (forall u :: u in db.users && InTeamNamed(db.State(), u, name) ==>
                    exists i :: 0 <= i < |r.value| && r.value[i].id == u)
  {
    var found := db.TeamExists(name);
    if !found {
      return Failure(TeamNotFound);
    }
    var members := db.GetTeamMembers(name);
    r := Success(members);
  }

  /** Sets one user's activity and returns the re-read user.  Nothing else
      changes: no reviewer link is touched, unlike a deactivation through
      `CreateTeam`. */
  method UserSetIsActive(db: Store, req: SetIsActiveRequest) returns (r: Result<User>)
    requires Valid(db.State())
    modifies db
    ensures Valid(db.State())
    ensures db.teams == old(db.teams) && db.prs == old(db.prs) && db.links == old(db.links)
    ensures req.isActive.None? ==> r == Failure(IsActiveMissing) && db.users == old(db.users)
    ensures req.isActive.Some? && req.userId !in old(db.users) ==>
              r == Failure(UserNotFound) && db.users == old(db.users)
    ensures req.isActive.Some? && req.userId in old(db.users) ==>
              var row := old(db.users)[req.userId];
              && db.users == old(db.users)[req.userId := row.(isActive := req.isActive.value)]
              && r == Success(User(req.userId, row.username, db.teams[row.teamId], req.isActive.value))
  {
    var outcome := db.UserSetIsActive(req.userId, req.isActive);
    if outcome.Fail? {
      return Failure(outcome.error);
    }
    r := db.GetUserById(req.userId);
  }

  /** The PRs `userId` reviews; an unknown user, like a user without links,
      gets an empty list rather than an error. */
  method GetPRs(db: Store, userId: UserId) returns (r: Result<seq<PullRequestShort>>)
    requires Integrity(db.State())
    ensures r.Success?
    ensures forall i :: 0 <= i < |r.value| ==>
              r.value[i].id in db.prs && r.value[i] == ShortView(db.State(), r.value[i].id)
    ensures forall i, j :: 0 <= i < j < |r.value| ==> r.value[i].id != r.value[j].id
    ensures forall p :: (p, userId) in db.links <==> exists i :: 0 <= i < |r.value| && r.value[i].id == p
    ensures ReviewedBy(db.links, userId) == {} ==> r.value == []
  {
    var prs := db.GetPRsByUserId(userId);
    r := Success(prs);
    if prs != [] {
      assert (prs[0].id, userId) in db.links;
      assert prs[0].id in ReviewedBy(db.links, userId);
    }
  }

  // ---------------------------------------------------------------------------
  // CreateTeam and the reconciliation of deactivated members

  /** A link added by reconciliation goes to a member of team `teamId` who is
      not the PR's author. */
  ghost predicate ReplacementLink(s0: DbState, l: (PrId, UserId), teamId: TeamId) {
    && l.0 in s0.prs && l.1 in s0.users
    && s0.users[l.1].teamId == teamId && l.1 != s0.prs[l.0].authorId
  }

  /** What reconciliation may do to one PR between states `s0` and `s`: its
      reviewer count never grows; when it shrank, `needMoreReviewers` is set;
      and the flag is the only field that may change, only to true, and only
      on a PR that lost a reviewer. */
  ghost predicate PrReconciled(s0: DbState, s: DbState, p: PrId)
    requires p in s0.prs && p in s.prs
  {
    && (s.prs[p] == s0.prs[p] || s.prs[p] == s0.prs[p].(needMoreReviewers := true))
    && |Reviewers(s.links, p)| <= |Reviewers(s0.links, p)|
    && (|Reviewers(s.links, p)| < |Reviewers(s0.links, p)| ==> s.prs[p].needMoreReviewers)
    && (s.prs[p] != s0.prs[p] ==> |Reviewers(s.links, p)| < |Reviewers(s0.links, p)|)
  }

  /** Reconciliation between `s0` and `s`: users, teams and the set of PRs are
      unchanged, every PR is reconciled, and every new link is a replacement
      from team `teamId`. */
  ghost predicate Reconciled(s0: DbState, s: DbState, teamId: TeamId) {
    && s.users == s0.users && s.teams == s0.teams && s.prs.Keys == s0.prs.Keys
    && (forall p :: p in s0.prs ==> PrReconciled(s0, s, p))
    && (forall l :: l in s.links && l !in s0.links ==> ReplacementLink(s0, l, teamId))
  }

  lemma ReconciledTransitive(s0: DbState, s1: DbState, s2: DbState, teamId: TeamId)
    requires Reconciled(s0, s1, teamId) && Reconciled(s1, s2, teamId)
    ensures Reconciled(s0, s2, teamId)
  {
    forall p | p in s0.prs ensures PrReconciled(s0, s2, p) {
      assert PrReconciled(s0, s1, p) && PrReconciled(s1, s2, p);
    }
    forall l | l in s2.links && l !in s0.links ensures ReplacementLink(s0, l, teamId) {
      if l !in s1.links {
        assert ReplacementLink(s1, l, teamId);
        assert s1.prs[l.0].authorId == s0.prs[l.0].authorId by {
          assert PrReconciled(s0, s1, l.0);
        }
      }
    }
  }

  /** Reconciliation keeps a valid store valid. */
  lemma ReconciledKeepsValid(s0: DbState, s: DbState, teamId: TeamId)
    requires Valid(s0) && Reconciled(s0, s, teamId)
    ensures Valid(s)
  {
    forall p | p in s.prs ensures |Reviewers(s.links, p)| <= MaxReviewersPerPR {
      assert PrReconciled(s0, s, p);
    }
    forall l | l in s.links && l.0 in s.prs ensures l.1 != s.prs[l.0].authorId {
      assert PrReconciled(s0, s, l.0);
    }
    forall p | p in s.prs ensures s.prs[p].status == Merged <==> s.prs[p].mergedAt.Some? {
      assert PrReconciled(s0, s, p);
    }
  }

  /** The PRs of `prIds` from position `k` on are pending: each has lost
      exactly its link to `memberId` and is otherwise as in `s0`. */
  ghost predicate PendingUnlinked(s0: DbState, s: DbState, memberId: UserId, prIds: seq<PrId>, k: nat)
    requires k <= |prIds|
  {
    forall j :: k <= j < |prIds| ==>
      && prIds[j] in s0.prs && prIds[j] in s.prs && s.prs[prIds[j]] == s0.prs[prIds[j]]
      && memberId in Reviewers(s0.links, prIds[j])
      && Reviewers(s.links, prIds[j]) == Reviewers(s0.links, prIds[j]) - {memberId}
  }

  /** Every PR that is not pending is reconciled. */
  ghost predicate OthersReconciled(s0: DbState, s: DbState, prIds: seq<PrId>, k: nat)
    requires k <= |prIds|
    requires s.prs.Keys == s0.prs.Keys
  {
    forall p :: p in s0.prs && p !in prIds[k..] ==> PrReconciled(s0, s, p)
  }

  /** Links added are replacements, never to `memberId`; links removed were
      `memberId`'s; every link has its rows; `memberId` has no link. */
  ghost predicate LinksAccounted(s0: DbState, s: DbState, memberId: UserId, teamId: TeamId) {
    && (forall l :: l in s.links && l !in s0.links ==> ReplacementLink(s0, l, teamId) && l.1 != memberId)
    && (forall l :: l in s0.links && l !in s.links ==> l.1 == memberId)
    && (forall l :: l in s.links ==> l.0 in s.prs && l.1 in s.users)
    && (forall p :: (p, memberId) !in s.links)
  }

  /** The state of `ReconcileMember` after the links of `memberId` to the
      PRs `prIds` were deleted and the first `k` of those PRs were handled:
      the PRs still pending have lost exactly that link, every other PR is
      reconciled, and the member has no links. */
  ghost predicate ReconcileProgress(s0: DbState, s: DbState, memberId: UserId, teamId: TeamId,
                                    prIds: seq<PrId>, k: nat)
    requires k <= |prIds|
  {
    && s.users == s0.users && s.teams == s0.teams && s.prs.Keys == s0.prs.Keys
    && PendingUnlinked(s0, s, memberId, prIds, k)
    && OthersReconciled(s0, s, prIds, k)
    && LinksAccounted(s0, s, memberId, teamId)
  }

  /** A replacement was tried for PR `p`: it has fewer reviewers in `s` than
      in `s0` only when every user of team `teamId` other than the
      deactivated `memberId` and the PR's author is linked to it, so no
      teammate was left to link. */
  ghost predicate ShortOnlyWhenPoolLinked(s0: DbState, s: DbState, memberId: UserId, teamId: TeamId, p: PrId) {
    p in s0.prs && |Reviewers(s.links, p)| < |Reviewers(s0.links, p)| ==>
      forall u :: u in s0.users && s0.users[u].teamId == teamId && u != memberId && u != s0.prs[p].authorId ==>
        (p, u) in s.links
  }

  /** Every PR that is not pending in `ReconcileMember`'s loop had its
      replacement tried. */
  ghost predicate ReplacedSoFar(s0: DbState, s: DbState, memberId: UserId, teamId: TeamId,
                                prIds: seq<PrId>, k: nat)
    requires k <= |prIds|
  {
    forall p :: p !in prIds[k..] ==> ShortOnlyWhenPoolLinked(s0, s, memberId, teamId, p)
  }

  /** Right after the unlink, only the pending PRs have lost a reviewer. */
  lemma ReplacedStart(s0: DbState, s: DbState, memberId: UserId, teamId: TeamId, prIds: seq<PrId>)
    requires s.links == UnlinkUser(s0.links, memberId)
    requires forall p :: p in prIds <==> (p, memberId) in s0.links
    ensures ReplacedSoFar(s0, s, memberId, teamId, prIds, 0)
  {
    assert prIds[0..] == prIds;
    forall p | p !in prIds ensures Reviewers(s.links, p) == Reviewers(s0.links, p) {
      ReviewersAfterUnlink(s0.links, memberId, p);
    }
  }

  /** The PR just handled had its replacement tried: with none linked every
      teammate was linked already, and with one linked the PR is back to its
      old reviewer count. */
  lemma HandledPRReplaced(s0: DbState, s: DbState, s': DbState, memberId: UserId, teamId: TeamId,
                          p: PrId, newId: UserId)
    requires s.users == s0.users && p in s0.prs && p in s.prs && s.prs[p] == s0.prs[p]
    requires memberId in Reviewers(s0.links, p)
    requires Reviewers(s.links, p) == Reviewers(s0.links, p) - {memberId}
    requires newId == "" ==>
               && s'.links == s.links
               && forall u :: (u in s.users && s.users[u].teamId == teamId && u != memberId
                                && u != s.prs[p].authorId) ==> (p, u) in s.links
    requires newId != "" ==> s'.links == s.links + {(p, newId)} && (p, newId) !in s.links
    ensures ShortOnlyWhenPoolLinked(s0, s', memberId, teamId, p)
  {
    if newId != "" {
      ReviewersAfterLink(s.links, p, newId, p);
      assert newId !in Reviewers(s.links, p);
      assert |Reviewers(s'.links, p)| == |Reviewers(s0.links, p)|;
    }
  }

  /** Handling the next pending PR keeps `ReplacedSoFar` one step further:
      the handled PR had its replacement tried, and every other PR keeps its
      reviewers and gains no link it lacked. */
  lemma ReplacedStep(s0: DbState, s: DbState, s': DbState, memberId: UserId, teamId: TeamId,
                     prIds: seq<PrId>, k: nat, newId: UserId)
    requires k < |prIds|
    requires s.users == s0.users && prIds[k] in s0.prs && prIds[k] in s.prs && s.prs[prIds[k]] == s0.prs[prIds[k]]
    requires memberId in Reviewers(s0.links, prIds[k])
    requires Reviewers(s.links, prIds[k]) == Reviewers(s0.links, prIds[k]) - {memberId}
    requires ReplacedSoFar(s0, s, memberId, teamId, prIds, k)
    requires newId == "" ==>
               && s'.links == s.links
               && forall u :: (u in s.users && s.users[u].teamId == teamId && u != memberId
                                && u != s.prs[prIds[k]].authorId) ==> (prIds[k], u) in s.links
    requires newId != "" ==> s'.links == s.links + {(prIds[k], newId)} && (prIds[k], newId) !in s.links
    ensures ReplacedSoFar(s0, s', memberId, teamId, prIds, k + 1)
  {
    var p := prIds[k];
    HandledPRReplaced(s0, s, s', memberId, teamId, p, newId);
    assert prIds[k..] == [p] + prIds[k + 1..];
    forall q | q !in prIds[k + 1..] && q != p ensures ShortOnlyWhenPoolLinked(s0, s', memberId, teamId, q) {
      assert q !in prIds[k..];
      assert ShortOnlyWhenPoolLinked(s0, s, memberId, teamId, q);
      if newId != "" {
        ReviewersAfterLink(s.links, p, newId, q);
      }
    }
  }

  /** Deleting the member's links starts the reconciliation: every PR it
      reviewed is pending, and every other PR is untouched. */
  lemma ReconcileStart(s0: DbState, s: DbState, memberId: UserId, teamId: TeamId, prIds: seq<PrId>)
    requires Valid(s0)
    requires s.users == s0.users && s.teams == s0.teams && s.prs == s0.prs
    requires s.links == UnlinkUser(s0.links, memberId)
    requires forall p :: p in prIds <==> (p, memberId) in s0.links
    ensures ReconcileProgress(s0, s, memberId, teamId, prIds, 0)
  {
    forall p | p in s0.prs ensures Reviewers(s.links, p) == Reviewers(s0.links, p) - {memberId} {
      ReviewersAfterUnlink(s0.links, memberId, p);
    }
    forall j | 0 <= j < |prIds| ensures prIds[j] in s0.prs && memberId in Reviewers(s0.links, prIds[j]) {
      assert (prIds[j], memberId) in s0.links;
    }
    assert prIds[0..] == prIds;
  }

  /** Handling the next pending PR — linking one replacement, or flagging the
      PR when every teammate is linked already — keeps the progress
      predicates one step further. */
  lemma ReconcileStep(s0: DbState, s: DbState, s': DbState, memberId: UserId, teamId: TeamId,
                      prIds: seq<PrId>, k: nat, newId: UserId)
    requires NoDuplicates(prIds) && k < |prIds|
    requires ReconcileProgress(s0, s, memberId, teamId, prIds, k)
    requires ReplacedSoFar(s0, s, memberId, teamId, prIds, k)
    requires s'.users == s.users && s'.teams == s.teams
    requires newId == "" ==>
               && s'.links == s.links && s'.prs == FlagNeedMoreReviewers(s.prs, prIds[k])
               && forall u :: (u in s.users && s.users[u].teamId == teamId && u != memberId
                                && u != s.prs[prIds[k]].authorId) ==> (prIds[k], u) in s.links
    requires newId != "" ==>
               && s'.links == s.links + {(prIds[k], newId)} && s'.prs == s.prs
               && (prIds[k], newId) !in s.links
               && newId in s.users && s.users[newId].teamId == teamId
               && newId != memberId && newId != s.prs[prIds[k]].authorId
    ensures ReconcileProgress(s0, s', memberId, teamId, prIds, k + 1)
    ensures ReplacedSoFar(s0, s', memberId, teamId, prIds, k + 1)
  {
    var p := prIds[k];
    assert p in s0.prs && p in s.prs && s.prs[p] == s0.prs[p];
    assert memberId in Reviewers(s0.links, p);
    assert Reviewers(s.links, p) == Reviewers(s0.links, p) - {memberId};
    ReplacedStep(s0, s, s', memberId, teamId, prIds, k, newId);
    if newId == "" {
      forall q ensures Reviewers(s'.links, q) == Reviewers(s.links, q) {
      }
      PendingStep(s0, s, s', memberId, prIds, k);
      FlaggedReconciled(s0, s, s', p, memberId);
      DoneStep(s0, s, s', prIds, k);
      assert LinksAccounted(s0, s', memberId, teamId);
    } else {
      forall q ensures Reviewers(s'.links, q) == if q == p then Reviewers(s.links, q) + {newId}
                                                 else Reviewers(s.links, q) {
        ReviewersAfterLink(s.links, p, newId, q);
      }
      PendingStep(s0, s, s', memberId, prIds, k);
      LinkedReconciled(s0, s, s', p, memberId, newId);
      DoneStep(s0, s, s', prIds, k);
      LinkedAccounted(s0, s, s', memberId, teamId, p, newId);
    }
  }

  /** The PRs still pending after the handled one are untouched by the step. */
  lemma PendingStep(s0: DbState, s: DbState, s': DbState, memberId: UserId, prIds: seq<PrId>, k: nat)
    requires NoDuplicates(prIds) && k < |prIds|
    requires PendingUnlinked(s0, s, memberId, prIds, k)
    requires s'.prs.Keys == s.prs.Keys
    requires forall q :: q in s.prs && q != prIds[k] ==> s'.prs[q] == s.prs[q]
    requires forall q :: q != prIds[k] ==> Reviewers(s'.links, q) == Reviewers(s.links, q)
    ensures PendingUnlinked(s0, s', memberId, prIds, k + 1)
  {
    forall j | k + 1 <= j < |prIds| ensures prIds[j] != prIds[k] {
    }
  }

  /** Once the handled PR is reconciled, every PR outside the remaining
      pending ones is. */
  lemma DoneStep(s0: DbState, s: DbState, s': DbState, prIds: seq<PrId>, k: nat)
    requires k < |prIds|
    requires s.prs.Keys == s0.prs.Keys && s'.prs.Keys == s0.prs.Keys
    requires OthersReconciled(s0, s, prIds, k)
    requires prIds[k] in s0.prs && PrReconciled(s0, s', prIds[k])
    requires forall q :: q in s.prs && q != prIds[k] ==> s'.prs[q] == s.prs[q]
    requires forall q :: q != prIds[k] ==> Reviewers(s'.links, q) == Reviewers(s.links, q)
    ensures OthersReconciled(s0, s', prIds, k + 1)
  {
    assert prIds[k..] == [prIds[k]] + prIds[k + 1..];
    forall q | q in s0.prs && q !in prIds[k + 1..] ensures PrReconciled(s0, s', q) {
      if q != prIds[k] {
        assert q !in prIds[k..];
        assert PrReconciled(s0, s, q);
      }
    }
  }

  /** A PR with no replacement lost one reviewer and is now flagged. */
  lemma FlaggedReconciled(s0: DbState, s: DbState, s': DbState, p: PrId, memberId: UserId)
    requires p in s0.prs && p in s.prs && s.prs[p] == s0.prs[p]
    requires memberId in Reviewers(s0.links, p)
    requires Reviewers(s.links, p) == Reviewers(s0.links, p) - {memberId}
    requires s'.links == s.links && s'.prs == FlagNeedMoreReviewers(s.prs, p)
    ensures p in s'.prs && PrReconciled(s0, s', p)
    ensures forall q :: q in s.prs && q != p ==> s'.prs[q] == s.prs[q]
    ensures s'.prs.Keys == s.prs.Keys
  {
  }

  /** A PR that got a replacement keeps its reviewer count and its row. */
  lemma LinkedReconciled(s0: DbState, s: DbState, s': DbState, p: PrId, memberId: UserId, newId: UserId)
    requires p in s0.prs && p in s.prs && s.prs[p] == s0.prs[p]
    requires memberId in Reviewers(s0.links, p)
    requires Reviewers(s.links, p) == Reviewers(s0.links, p) - {memberId}
    requires s'.prs == s.prs
    requires Reviewers(s'.links, p) == Reviewers(s.links, p) + {newId}
    requires newId !in Reviewers(s.links, p)
    ensures PrReconciled(s0, s', p)
  {
    assert |Reviewers(s.links, p)| == |Reviewers(s0.links, p)| - 1;
  }

  lemma LinkedAccounted(s0: DbState, s: DbState, s': DbState, memberId: UserId, teamId: TeamId,
                        p: PrId, newId: UserId)
    requires LinksAccounted(s0, s, memberId, teamId)
    requires s.users == s0.users && s'.users == s.users && s'.prs == s.prs
    requires p in s0.prs && p in s.prs && s.prs[p].authorId == s0.prs[p].authorId
    requires s'.links == s.links + {(p, newId)}
    requires newId in s.users && s.users[newId].teamId == teamId
    requires newId != memberId && newId != s.prs[p].authorId
    ensures LinksAccounted(s0, s', memberId, teamId)
  {
    assert ReplacementLink(s0, (p, newId), teamId);
  }

  /** With no PR left pending, the member's reconciliation is complete. */
  lemma ReconcileDone(s0: DbState, s: DbState, memberId: UserId, teamId: TeamId, prIds: seq<PrId>)
    requires Valid(s0)
    requires ReconcileProgress(s0, s, memberId, teamId, prIds, |prIds|)
    ensures Reconciled(s0, s, teamId)
    ensures ReviewedBy(s.links, memberId) == {}
    ensures Valid(s)
  {
    assert prIds[|prIds|..] == [];
    ReconciledKeepsValid(s0, s, teamId);
  }

  /** The replacement `AssignPRToUser` picks from the shuffled teammates of
      `memberId` is not yet linked to the PR, is in team `teamId`, and is
      neither the deactivated member nor the PR's author; no pick means
      every teammate is linked already. */
  lemma PickedReplacement(s: DbState, p: PrId, memberId: UserId, teamId: TeamId,
                          pool: seq<UserId>, cands: seq<UserId>)
    requires "" !in s.users && p in s.prs
    requires memberId in s.users && s.users[memberId].teamId == teamId
    requires forall u :: u in pool <==>
               && u in s.users && s.users[u].teamId == s.users[memberId].teamId
               && u != memberId && u != s.prs[p].authorId
    requires forall u :: u in cands <==> u in pool
    ensures match FirstUnlinked(s.links, p, cands)
            case None =>
              forall u :: u in s.users && s.users[u].teamId == teamId && u != memberId && u != s.prs[p].authorId ==>
                (p, u) in s.links
            case Some(c) =>
              && c != "" && (p, c) !in s.links && c in s.users && s.users[c].teamId == teamId
              && c != memberId && c != s.prs[p].authorId
  {
    match FirstUnlinked(s.links, p, cands)
    case None =>
      forall u | u in s.users && s.users[u].teamId == teamId && u != memberId && u != s.prs[p].authorId
        ensures (p, u) in s.links
      {
        assert u in pool && u in cands;
      }
    case Some(c) =>
      var i :| 0 <= i < |cands| && cands[i] == c && (p, c) !in s.links;
      assert c in pool;
  }

  /** One deactivated member: unlink it from every PR, then for each affected
      PR link at most one replacement from the member's team (not the member,
      not the author), and flag the PR when none could be linked.  Afterwards
      the member has no links and only its links were removed. */
  method ReconcileMember(db: Store, memberId: UserId, teamId: TeamId) returns (res: Outcome)
    requires Valid(db.State())
    requires memberId in db.users && db.users[memberId].teamId == teamId
    modifies db
    ensures res == Pass
    ensures Reconciled(old(db.State()), db.State(), teamId)
    ensures ReviewedBy(db.links, memberId) == {}
    ensures forall l :: l in old(db.links) && l !in db.links ==> l.1 == memberId
    ensures forall l :: l in db.links && l !in old(db.links) ==> l.1 != memberId
    ensures forall p :: ShortOnlyWhenPoolLinked(old(db.State()), db.State(), memberId, teamId, p)
    ensures Valid(db.State())
  {
    ghost var s0 := db.State();
    var prIds := db.UnassignPRsFromUser(memberId);
    ReconcileStart(s0, db.State(), memberId, teamId, prIds);
    ReplacedStart(s0, db.State(), memberId, teamId, prIds);

    var k := 0;
    while k < |prIds|
      invariant 0 <= k <= |prIds|
      invariant ReconcileProgress(s0, db.State(), memberId, teamId, prIds, k)
      invariant ReplacedSoFar(s0, db.State(), memberId, teamId, prIds, k)
    {
      // The source returns this step's error through a shadowed `err`;
      // the teammate query cannot fail for an existing member and PR.
      var _ := ReconcilePR(db, memberId, teamId, prIds, k, s0);
      k := k + 1;
    }
    res := Pass;
    ReconcileDone(s0, db.State(), memberId, teamId, prIds);
    assert prIds[|prIds|..] == [];
  }

  /** The loop's step for the `k`-th PR the member was unlinked from: query
      the member's teammates, link one of them in shuffled order, and flag
      the PR when none could be linked.  The reconciliation made since state
      `s0` extends by that PR. */
  method ReconcilePR(db: Store, memberId: UserId, teamId: TeamId, prIds: seq<PrId>, k: nat,
                     ghost s0: DbState) returns (res: Outcome)
    requires Valid(s0) && memberId in s0.users && s0.users[memberId].teamId == teamId
    requires NoDuplicates(prIds) && k < |prIds|
    requires ReconcileProgress(s0, db.State(), memberId, teamId, prIds, k)
    requires ReplacedSoFar(s0, db.State(), memberId, teamId, prIds, k)
    modifies db
    ensures res == Pass
    ensures ReconcileProgress(s0, db.State(), memberId, teamId, prIds, k + 1)
    ensures ReplacedSoFar(s0, db.State(), memberId, teamId, prIds, k + 1)
  {
    var prId := prIds[k];
    ghost var before := db.State();
    var teammates := db.GetTeammates(prId, memberId);
    match teammates {
      case Failure(e) =>
        return Fail(e);
      case Success(pool) =>
        var shuffled := ShuffledCopy(pool);
        PermutationKeepsDistinct(pool, shuffled);
        PickedReplacement(before, prId, memberId, teamId, pool, shuffled);
        LinkAccepted(db.prs, db.users, db.links, prId, shuffled);
        var newAssignerId, linked := db.AssignPRToUser(prId, shuffled);
        if linked.Fail? {
          return linked;
        }
        if newAssignerId == "" {
          db.SetNeedMoreReviewers(prId);
        }
        ReconcileStep(s0, before, db.State(), memberId, teamId, prIds, k, newAssignerId);
    }
    res := Pass;
  }

  /** `ReconcileMember` as the source writes it: the team's id is passed
      where `GetTeammates` expects the id of the user being replaced.  A
      fresh team id is no user's id, so the first teammate query finds no
      row.  The error returns through a shadowed `err`, so the transaction
      commits: the member's links are deleted, no replacement is linked and
      no PR is flagged. */
  method ReconcileMemberAsWritten(db: Store, memberId: UserId, teamId: TeamId) returns (res: Outcome)
    modifies db
    ensures db.users == old(db.users) && db.teams == old(db.teams)
    ensures teamId !in old(db.users) ==>
              && db.links == UnlinkUser(old(db.links), memberId) && db.prs == old(db.prs)
              && (res == Fail(NoRows) <==> ReviewedBy(old(db.links), memberId) != {})
              && (res == Pass <==> ReviewedBy(old(db.links), memberId) == {})
  {
    var prIds := db.UnassignPRsFromUser(memberId);
    var k := 0;
    while k < |prIds|
      invariant 0 <= k <= |prIds|
      invariant db.users == old(db.users) && db.teams == old(db.teams)
      invariant teamId !in db.users ==>
                  k == 0 && db.links == UnlinkUser(old(db.links), memberId) && db.prs == old(db.prs)
    {
      var prId := prIds[k];
      assert (prId, memberId) in old(db.links);
      assert prId in ReviewedBy(old(db.links), memberId);
      var teammates := db.GetTeammates(prId, teamId);
      match teammates {
        case Failure(e) =>
          return Fail(e);
        case Success(pool) =>
          var shuffled := ShuffledCopy(pool);
          var newAssignerId, linked := db.AssignPRToUser(prId, shuffled);
          if linked.Fail? {
            return linked;
          }
          if newAssignerId == "" {
            db.SetNeedMoreReviewers(prId);
          }
      }
      k := k + 1;
    }
    res := Pass;
    assert forall p :: p in ReviewedBy(old(db.links), memberId) ==> p in prIds;
  }

  /** What the as-written reconciliation leaves behind is not a
      reconciliation: a PR that loses the deactivated member as a reviewer
      and was not flagged stays unflagged with one reviewer fewer. */
  lemma AsWrittenLeavesShortPRUnflagged(s: DbState, s': DbState, memberId: UserId, p: PrId)
    requires p in s.prs && (p, memberId) in s.links && !s.prs[p].needMoreReviewers
    requires s'.links == UnlinkUser(s.links, memberId) && s'.prs == s.prs
    ensures |Reviewers(s'.links, p)| == |Reviewers(s.links, p)| - 1
    ensures !s'.prs[p].needMoreReviewers
    ensures !PrReconciled(s, s', p)
  {
    ReviewersAfterUnlink(s.links, memberId, p);
    assert memberId in Reviewers(s.links, p);
  }

  /** Member `i` is inactive and no member after it, up to position `n`, is. */
  predicate LastInactive(ms: seq<Member>, n: nat, i: int)
    requires n <= |ms|
  {
    0 <= i < n && !ms[i].isActive && forall j :: i < j < n ==> ms[j].isActive
  }

  /** The state of `ReconcileInactive` after the first `i` members:
      reconciled against the start; untouched while every member so far
      was active; every link removed so far belonged to a member sent as
      inactive; and the last inactive member so far has no links. */
  ghost predicate InactiveProgress(s1: DbState, s: DbState, members: seq<Member>, teamId: TeamId, i: nat)
    requires i <= |members|
  {
    && Reconciled(s1, s, teamId)
    && ((forall j :: 0 <= j < i ==> members[j].isActive) ==> s.links == s1.links && s.prs == s1.prs)
    && (forall l :: l in s1.links && l !in s.links ==>
          exists j :: 0 <= j < i && !members[j].isActive && members[j].id == l.1)
    && (forall j :: LastInactive(members, i, j) ==> ReviewedBy(s.links, members[j].id) == {})
  }

  /** No member at a position below `i` was sent as inactive under id `u`. */
  predicate NotDeactivated(members: seq<Member>, i: nat, u: UserId)
    requires i <= |members|
  {
    forall j :: 0 <= j < i && !members[j].isActive ==> members[j].id != u
  }

  /** After the first `i` members: a PR that has fewer reviewers than at
      `s1` is linked to every user of team `teamId`, other than its author,
      whom none of those members deactivated.  A PR ends up short only when
      no teammate was left to link. */
  ghost predicate ShortPRsKeepTeam(s1: DbState, s: DbState, members: seq<Member>, teamId: TeamId, i: nat)
    requires i <= |members|
  {
    forall p :: p in s1.prs && |Reviewers(s.links, p)| < |Reviewers(s1.links, p)| ==>
      forall u :: (u in s1.users && s1.users[u].teamId == teamId && u != s1.prs[p].authorId
                   && NotDeactivated(members, i, u)) ==> (p, u) in s.links
  }

  /** Reconciling member `i` keeps `ShortPRsKeepTeam` one member further: a
      PR already short keeps its links but the member's, and a PR the member
      left short has every teammate but the member linked. */
  lemma ShortInactiveStep(s1: DbState, s: DbState, s': DbState, members: seq<Member>, teamId: TeamId, i: nat)
    requires i < |members| && !members[i].isActive
    requires ShortPRsKeepTeam(s1, s, members, teamId, i)
    requires Reconciled(s1, s, teamId)
    requires forall l :: l in s.links && l !in s'.links ==> l.1 == members[i].id
    requires forall p :: ShortOnlyWhenPoolLinked(s, s', members[i].id, teamId, p)
    ensures ShortPRsKeepTeam(s1, s', members, teamId, i + 1)
  {
    forall p, u | && p in s1.prs && |Reviewers(s'.links, p)| < |Reviewers(s1.links, p)|
                  && u in s1.users && s1.users[u].teamId == teamId && u != s1.prs[p].authorId
                  && NotDeactivated(members, i + 1, u)
      ensures (p, u) in s'.links
    {
      assert PrReconciled(s1, s, p);
      assert u != members[i].id;
      if |Reviewers(s.links, p)| < |Reviewers(s1.links, p)| {
        assert NotDeactivated(members, i, u);
        assert (p, u) in s.links;
      } else {
        assert ShortOnlyWhenPoolLinked(s, s', members[i].id, teamId, p);
      }
    }
  }

  /** An active member is skipped. */
  lemma ActiveStep(s1: DbState, s: DbState, members: seq<Member>, teamId: TeamId, i: nat)
    requires i < |members| && members[i].isActive
    requires InactiveProgress(s1, s, members, teamId, i)
    requires ShortPRsKeepTeam(s1, s, members, teamId, i)
    ensures InactiveProgress(s1, s, members, teamId, i + 1)
    ensures ShortPRsKeepTeam(s1, s, members, teamId, i + 1)
  {
    forall j | LastInactive(members, i + 1, j) ensures LastInactive(members, i, j) {
    }
    forall l | l in s1.links && l !in s.links
      ensures exists j :: 0 <= j < i + 1 && !members[j].isActive && members[j].id == l.1
    {
      var j :| 0 <= j < i && !members[j].isActive && members[j].id == l.1;
    }
  }

  /** The trace over all members, from `s1` to `s`, gives what
      `ReconcileInactive` promises. */
  lemma InactiveDone(trace: seq<DbState>, s1: DbState, s: DbState, members: seq<Member>, teamId: TeamId)
    requires Valid(s1)
    requires HandledInOrder(trace, members, teamId) && trace[0] == s1 && trace[|members|] == s
    ensures ShortPRsKeepTeam(s1, s, members, teamId, |members|)
    ensures Valid(s) && Reconciled(s1, s, teamId)
    ensures (forall m :: m in members ==> m.isActive) ==> s.links == s1.links && s.prs == s1.prs
    ensures forall l :: l in s1.links && l !in s.links ==>
              exists j :: 0 <= j < |members| && !members[j].isActive && members[j].id == l.1
    ensures forall i :: LastInactive(members, |members|, i) ==> ReviewedBy(s.links, members[i].id) == {}
  {
    TraceProgress(trace, members, teamId, |members|);
    ReconciledKeepsValid(s1, s, teamId);
    if forall m :: m in members ==> m.isActive {
      assert forall j :: 0 <= j < |members| ==> members[j].isActive by {
        forall j | 0 <= j < |members| ensures members[j].isActive {
          assert members[j] in members;
        }
      }
    }
  }

  /** An inactive member's reconciliation extends the progress by one. */
  lemma InactiveStep(s1: DbState, s: DbState, s': DbState, members: seq<Member>, teamId: TeamId, i: nat)
    requires i < |members| && !members[i].isActive
    requires InactiveProgress(s1, s, members, teamId, i)
    requires Reconciled(s, s', teamId)
    requires ReviewedBy(s'.links, members[i].id) == {}
    requires forall l :: l in s.links && l !in s'.links ==> l.1 == members[i].id
    ensures InactiveProgress(s1, s', members, teamId, i + 1)
  {
    ReconciledTransitive(s1, s, s', teamId);
    forall l | l in s1.links && l !in s'.links
      ensures exists j :: 0 <= j < i + 1 && !members[j].isActive && members[j].id == l.1
    {
      if l in s.links {
        assert l.1 == members[i].id;
      } else {
        var j :| 0 <= j < i && !members[j].isActive && members[j].id == l.1;
      }
    }
    forall j | LastInactive(members, i + 1, j) ensures ReviewedBy(s'.links, members[j].id) == {} {
      assert j == i;
    }
  }

  /** What the loop does with member `m` between states `s` and `s'`: a
      member sent as active is skipped; one sent as inactive is reconciled,
      loses every link, only its links are removed, no link of its own is
      added, and a PR it leaves short has every other teammate linked. */
  ghost predicate MemberHandled(s: DbState, s': DbState, m: Member, teamId: TeamId) {
    if m.isActive then s' == s
    else
      && Reconciled(s, s', teamId)
      && ReviewedBy(s'.links, m.id) == {}
      && (forall l :: l in s.links && l !in s'.links ==> l.1 == m.id)
      && (forall l :: l in s'.links && l !in s.links ==> l.1 != m.id)
      && (forall p :: ShortOnlyWhenPoolLinked(s, s', m.id, teamId, p))
  }

  /** The first `n` members were handled one by one, in request order:
      `trace[i]` is the state before member `i` and `trace[i + 1]` the state
      after. */
  ghost predicate HandledUpTo(trace: seq<DbState>, members: seq<Member>, teamId: TeamId, n: nat)
    requires n <= |members|
  {
    && |trace| == n + 1
    && (n > 0 ==> HandledUpTo(trace[..n], members, teamId, n - 1)
                  && MemberHandled(trace[n - 1], trace[n], members[n - 1], teamId))
  }

  /** Each of the first `n` members was handled at its turn. */
  lemma {:induction false} HandledAt(trace: seq<DbState>, members: seq<Member>, teamId: TeamId, n: nat, i: nat)
    requires n <= |members| && HandledUpTo(trace, members, teamId, n) && i < n
    ensures MemberHandled(trace[i], trace[i + 1], members[i], teamId)
  {
    if i < n - 1 {
      HandledAt(trace[..n], members, teamId, n - 1, i);
      assert trace[..n][i] == trace[i] && trace[..n][i + 1] == trace[i + 1];
    }
  }

  /** After the loop, every member sent as inactive was reconciled at its
      turn and then reviewed nothing: the states around member `i` are
      `trace[i]` and `trace[i + 1]`. */
  lemma EveryInactiveMemberReconciled(trace: seq<DbState>, members: seq<Member>, teamId: TeamId, i: nat)
    requires HandledInOrder(trace, members, teamId)
    requires i < |members| && !members[i].isActive
    ensures Reconciled(trace[i], trace[i + 1], teamId)
    ensures ReviewedBy(trace[i + 1].links, members[i].id) == {}
    ensures forall l :: l in trace[i].links && l !in trace[i + 1].links ==> l.1 == members[i].id
    ensures MemberHandled(trace[i], trace[i + 1], members[i], teamId)
  {
    HandledAt(trace, members, teamId, |members|, i);
  }

  /** Every member was handled, in request order. */
  ghost predicate HandledInOrder(trace: seq<DbState>, members: seq<Member>, teamId: TeamId) {
    HandledUpTo(trace, members, teamId, |members|)
  }

  /** A link to an inactive member `j` that exists in state `trace[n]`, after
      member `j` was handled, was added as a replacement by the reconciliation
      of a later inactive member with another id. */
  lemma {:induction false} RelinkedByLaterMember(trace: seq<DbState>, members: seq<Member>, teamId: TeamId,
                                                 j: nat, n: nat, p: PrId)
    requires j < n <= |members| && !members[j].isActive
    requires HandledUpTo(trace, members, teamId, n)
    requires (p, members[j].id) in trace[n].links
    ensures exists k :: j < k < n && !members[k].isActive && members[k].id != members[j].id
                        && ReplacementLink(trace[k], (p, members[j].id), teamId)
  {
    var l := (p, members[j].id);
    if n == j + 1 {
      // Member j was just handled and so reviews nothing.
      NotReviewing(trace[j + 1].links, members[j].id, p);
      assert false;
    } else if l in trace[n - 1].links {
      assert trace[..n][n - 1] == trace[n - 1];
      RelinkedByLaterMember(trace[..n], members, teamId, j, n - 1, p);
      var k :| j < k < n - 1 && !members[k].isActive && members[k].id != members[j].id
               && ReplacementLink(trace[..n][k], l, teamId);
      assert trace[..n][k] == trace[k];
    } else {
      assert MemberHandled(trace[n - 1], trace[n], members[n - 1], teamId);
      assert !members[n - 1].isActive;
    }
  }

  /** A user who reviews no PR has no link. */
  lemma NotReviewing(links: Links, u: UserId, p: PrId)
    requires ReviewedBy(links, u) == {}
    ensures (p, u) !in links
  {
    assert (p, u) in links ==> p in ReviewedBy(links, u);
  }

  /** At the end of the loop, an inactive member still reviews a PR only
      because a later inactive member's reconciliation picked it as a
      replacement. */
  lemma InactiveRelinkedOnlyAsReplacement(trace: seq<DbState>, members: seq<Member>, teamId: TeamId,
                                          j: nat, p: PrId)
    requires HandledInOrder(trace, members, teamId)
    requires j < |members| && !members[j].isActive
    requires (p, members[j].id) in trace[|members|].links
    ensures exists k :: j < k < |members| && !members[k].isActive && members[k].id != members[j].id
                        && ReplacementLink(trace[k], (p, members[j].id), teamId)
  {
    RelinkedByLaterMember(trace, members, teamId, j, |members|, p);
  }

  /** The loop of `CreateTeam` over the request's members: every member sent
      as inactive is reconciled, in request order; `trace` records the state
      before and after each member. */
  method ReconcileInactive(db: Store, members: seq<Member>, teamId: TeamId)
    returns (res: Outcome, ghost trace: seq<DbState>)
    requires Valid(db.State())
    requires forall m :: m in members ==> m.id in db.users && db.users[m.id].teamId == teamId
    modifies db
    ensures res == Pass
    ensures Valid(db.State())
    ensures Reconciled(old(db.State()), db.State(), teamId)
    ensures (forall m :: m in members ==> m.isActive) ==> db.links == old(db.links) && db.prs == old(db.prs)
    ensures forall l :: l in old(db.links) && l !in db.links ==>
              exists j :: 0 <= j < |members| && !members[j].isActive && members[j].id == l.1
    ensures forall i :: LastInactive(members, |members|, i) ==> ReviewedBy(db.links, members[i].id) == {}
    ensures ShortPRsKeepTeam(old(db.State()), db.State(), members, teamId, |members|)
    ensures HandledInOrder(trace, members, teamId)
    ensures trace[0] == old(db.State()) && trace[|members|] == db.State()
  {
    ghost var s1 := db.State();
    trace := [s1];
    var i := 0;
    while i < |members|
      invariant 0 <= i <= |members|
      invariant Valid(db.State()) && db.users == s1.users
      invariant HandledUpTo(trace, members, teamId, i) && trace[0] == s1 && trace[i] == db.State()
    {
      trace := ReconcileNextMember(db, members, teamId, i, trace);
      i := i + 1;
    }
    res := Pass;
    InactiveDone(trace, s1, db.State(), members, teamId);
  }

  /** Appending the state after member `i` extends the trace by one member. */
  lemma TraceExtends(trace: seq<DbState>, members: seq<Member>, teamId: TeamId, i: nat, s: DbState, s': DbState)
    requires i < |members| && HandledUpTo(trace, members, teamId, i) && trace[i] == s
    requires MemberHandled(s, s', members[i], teamId)
    ensures HandledUpTo(trace + [s'], members, teamId, i + 1)
    ensures (trace + [s'])[0] == trace[0] && (trace + [s'])[i + 1] == s'
  {
    assert (trace + [s'])[..i + 1] == trace;
  }

  /** No member handled yet: nothing has changed. */
  lemma InactiveStart(s1: DbState, members: seq<Member>, teamId: TeamId)
    ensures InactiveProgress(s1, s1, members, teamId, 0)
    ensures ShortPRsKeepTeam(s1, s1, members, teamId, 0)
  {
  }

  /** The loop's step for member `i`: a member sent as active is skipped, one
      sent as inactive is reconciled; either way the progress made since
      state `s1` extends by one member. */
  method ReconcileNextMember(db: Store, members: seq<Member>, teamId: TeamId, i: nat, ghost trace: seq<DbState>)
    returns (ghost trace': seq<DbState>)
    requires i < |members| && Valid(db.State())
    requires members[i].id in db.users && db.users[members[i].id].teamId == teamId
    requires HandledUpTo(trace, members, teamId, i) && trace[i] == db.State()
    modifies db
    ensures Valid(db.State()) && db.users == old(db.users)
    ensures HandledUpTo(trace', members, teamId, i + 1)
    ensures trace'[0] == trace[0] && trace'[i + 1] == db.State()
  {
    if members[i].isActive {
      TraceExtends(trace, members, teamId, i, db.State(), db.State());
      return trace + [db.State()];
    }
    ghost var before := db.State();
    // The source returns this step's error through a shadowed `err`;
    // ReconcileMember cannot fail on a member that was just upserted.
    var _ := ReconcileMember(db, members[i].id, teamId);
    TraceExtends(trace, members, teamId, i, before, db.State());
    trace' := trace + [db.State()];
  }

  /** The states a trace records keep the loop's promises: the progress
      predicates hold between its first state and its state after `n`
      members. */
  lemma {:induction false} TraceProgress(trace: seq<DbState>, members: seq<Member>, teamId: TeamId, n: nat)
    requires n <= |members| && HandledUpTo(trace, members, teamId, n)
    ensures InactiveProgress(trace[0], trace[n], members, teamId, n)
    ensures ShortPRsKeepTeam(trace[0], trace[n], members, teamId, n)
  {
    if n == 0 {
      InactiveStart(trace[0], members, teamId);
    } else {
      var prefix := trace[..n];
      TraceProgress(prefix, members, teamId, n - 1);
      assert prefix[0] == trace[0] && prefix[n - 1] == trace[n - 1];
      if members[n - 1].isActive {
        ActiveStep(trace[0], trace[n - 1], members, teamId, n - 1);
      } else {
        InactiveStep(trace[0], trace[n - 1], trace[n], members, teamId, n - 1);
        ShortInactiveStep(trace[0], trace[n - 1], trace[n], members, teamId, n - 1);
      }
    }
  }

  /** Creates the team, upserts its members into it, then reconciles every
      member sent as inactive, in request order.

      A name or id already in use, or a username clash while upserting,
      rolls everything back.  The errors inside the member loop do not roll
      back, as their `err` is shadowed; in the model they cannot occur,
      because every member has just been upserted and every unlinked PR
      exists.

      `trace` holds the state before and after each member of the loop: every
      member sent as inactive is reconciled at its turn and then has no
      links.  The replacement pool has no activity filter, so a member
      deactivated earlier in the request can be picked as a later member's
      replacement: at the end only the last deactivated member is sure to
      have no links, and an earlier one keeps a link only as such a
      replacement (`InactiveRelinkedOnlyAsReplacement`). */
  method CreateTeam(db: Store, req: AddTeamRequest, teamId: TeamId)
    returns (res: Outcome, ghost trace: seq<DbState>)
    requires Valid(db.State())
    requires forall m :: m in req.members ==> m.id != ""
    modifies db
    ensures Valid(db.State())
    ensures res.Fail? ==> res.error in {TeamAlreadyExists, UserExists} && db.State() == old(db.State())
    ensures res == Fail(TeamAlreadyExists) <==> teamId in old(db.teams) || req.name in old(db.teams).Values
    ensures res == Fail(UserExists) <==>
              && teamId !in old(db.teams) && req.name !in old(db.teams).Values
              && UpsertMembers(old(db.users), teamId, req.members).1.Fail?
    ensures res.Pass? ==>
              && db.teams == old(db.teams)[teamId := req.name]
              && db.users == UpsertMembers(old(db.users), teamId, req.members).0
              && Reconciled(DbState(db.users, db.teams, old(db.prs), old(db.links)), db.State(), teamId)
              && ((forall m :: m in req.members ==> m.isActive) ==>
                    db.links == old(db.links) && db.prs == old(db.prs))
              && (forall l :: l in old(db.links) && l !in db.links ==>
                    exists j :: 0 <= j < |req.members| && !req.members[j].isActive && req.members[j].id == l.1)
              && (forall i :: LastInactive(req.members, |req.members|, i) ==>
                    ReviewedBy(db.links, req.members[i].id) == {})
              && ShortPRsKeepTeam(DbState(db.users, db.teams, old(db.prs), old(db.links)), db.State(),
                                  req.members, teamId, |req.members|)
              && HandledInOrder(trace, req.members, teamId)
              && trace[0] == DbState(db.users, db.teams, old(db.prs), old(db.links))
              && trace[|req.members|] == db.State()
  {
    var saved := db.State();
    var created := db.CreateTeam(teamId, req.name);
    if created.Fail? {
      db.Restore(saved);
      return Fail(TeamAlreadyExists), [];
    }

    var upserted := db.AddOrUpdateTeamMembers(teamId, req.members);
    UpsertRows(saved.users, teamId, req.members);
    if upserted.Fail? {
      db.Restore(saved);
      return Fail(UserExists), [];
    }
    UpsertKeepsUsernamesUnique(saved.users, teamId, req.members);
    UpsertTeam(saved.users, teamId, req.members);
    ValidAfterUpsert(saved, db.State(), teamId, req);

    // The loop's own errors are shadowed and commit: no rollback here.
    res, trace := ReconcileInactive(db, req.members, teamId);
  }

  /** Creating the team and upserting its members keeps the store valid. */
  lemma ValidAfterUpsert(s0: DbState, s: DbState, teamId: TeamId, req: AddTeamRequest)
    requires Valid(s0)
    requires forall m :: m in req.members ==> m.id != ""
    requires teamId !in s0.teams && req.name !in s0.teams.Values
    requires s.teams == s0.teams[teamId := req.name] && s.prs == s0.prs && s.links == s0.links
    requires s.users.Keys == s0.users.Keys + (set m | m in req.members :: m.id)
    requires forall u, v :: u in s.users && v in s.users && u != v ==> s.users[u].username != s.users[v].username
    requires forall u :: u in s.users ==> (u in s0.users && s.users[u] == s0.users[u]) || s.users[u].teamId == teamId
    ensures Valid(s)
  {
  }
}
